=== FILE: README.md ===
# TinyChessTest pipeline model

TinyChessTest drives a build-and-match pipeline for the TinyChess engine.
It fetches revisions of the engine with git and builds them with CMake.
Then it starts a cutechess-cli SPRT match (a sequential probability ratio
test) between two builds. This project models the decision logic of the two
pipeline scripts:

- `src/tinychess_test.py` works on one revision at a time. It has a source
  cache (`git pull` in an existing checkout) and a binary cache (reuse a
  binary already in `build`). It patches the engine's UCI name to carry the
  revision, and it builds the SPRT command.
- `src/tinychesstest.py` works on two revisions at once. It always wipes and
  re-clones them, and it always rebuilds.

The working space is an abstract file system: `WorkingSpace.FileSystem`.
Its state is a set of directories, a map from file paths to their text, the
set of read-only files, and a trace of the steps the pipeline completed. Its
pure counterpart is the value `WorkingSpace.Tree`; `FileSystem.View()` gives
the current tree, and a well-formed tree has every entry's parent directory
present. The steps recorded in the trace are `mkdir`, `mkdir -p`, `rmtree`,
`write_text` and `run_cmd`. `chmod` only clears a read-only flag and is not
recorded in the trace. The command log (`Commands`) is the trace restricted
to the shell commands, each with its working directory.

git, cmake and cutechess-cli are external processes. Their work is not
modelled. Each command takes an `Effect` parameter: the directories and files
it makes or rewrites, and the paths it removes, all strictly below its
working directory. So the properties hold for whatever the tools do inside
their working directory, removals included; what a tool might do elsewhere
is not covered (see "Left out").

Each step that changes the working space is a method, proved against pure
functions on trees: the exact condition under which it succeeds (for
example `Steps.CanReset`, `Steps.CloneSucceeds`, `Steps.CanRebuild`), the
tree it leaves (`Tree.Fresh`, `Steps.Cloned`, `Steps.Rebuilt`,
`TinyChessTest.FreshFetched`, `TinyChessTestPair.Fetched`), and what it
leaves untouched when it fails (`Tree.Outside`). Lemmas about those functions
show what a step replaces and what survives. The trace of a run that
completes is given by a plan: `Steps.ResetOps`, `Steps.CloneOps`,
`Steps.RebuildOps`, `TinyChessTest.FetchPlan` and
`TinyChessTestPair.FetchPlan`. A run that stops at a failing primitive
has recorded the plan's steps in order up to, and not including, the one
that raised (`WorkingSpace.Interrupted`): a proper prefix of the plan
appended to the old trace. Lemmas about the plans establish the
following:

- which commands are issued, and in what order;
- that every directory is prepared before the first command runs;
- what is removed and what is created.

Modules:

| module | file | contents |
|---|---|---|
| `Strings` | `strings.dfy` | Python's `in`, `str.replace`, `str.split`, `str.join`, `str.rfind` |
| `WorkingSpace` | `working_space.dfy` | paths, `PurePath.parent`/`name`/`stem`/`suffix`, trees and command effects, the file system and its primitive operations |
| `Steps` | `steps.dfy` | the steps both scripts share: layout, binary probe, `.git` removal, directory reset, clone, rebuild |
| `UciName` | `uci_name.dfy` | the UCI identity patch of `main.cpp` |
| `TinyChessTest` | `tinychess_test.dfy` | `src/tinychess_test.py` |
| `TinyChessTestPair` | `tinychesstest.dfy` | `src/tinychesstest.py` |

`Steps.Config` stands for the module globals:

- the working root `Path.cwd() / "working"`;
- the clone URL;
- the CMake generator: `"MinGW Makefiles"` in one script and `"Ninja"` in the other.

A revision string is used verbatim as one path segment. Python's default
arguments are Dafny default parameter values (`no_cache=True`,
`build_type="Debug"`, `no_book=False`).

## Model

| member | source | states |
|---|---|---|
| WorkingSpace.FileSystem.Exists | src/tinychess_test.py:62 | `exists()` holds exactly for a directory or a file of the current tree (also used at src/tinychess_test.py:70 and :111) |
| WorkingSpace.FileSystem.MakeDirs | src/tinychess_test.py:58 | `mkdir(parents=True, exist_ok=True)` succeeds exactly when no ancestor is a file; it adds all ancestors and nothing else |
| WorkingSpace.FileSystem.MakeDir | src/tinychess_test.py:75 | `mkdir()` succeeds exactly when the path does not exist and its parent is a directory; it adds only that directory |
| WorkingSpace.FileSystem.RemoveTree | src/tinychess_test.py:73 | `rmtree` succeeds exactly when the path is a directory with no read-only file beneath it; it then removes the path and everything below it, and nothing else; a failure leaves everything outside the path and the trace as they were, and changes nothing when the path is no directory |
| WorkingSpace.FileSystem.MakeWritable | src/tinychess_test.py:44 | `chmod(S_IWRITE)` clears the read-only flag of that one file and changes nothing else |
| WorkingSpace.FileSystem.ReadText | src/tinychess_test.py:83 | `read_text` succeeds exactly on an existing file and yields its text; otherwise it raises an OS error |
| WorkingSpace.FileSystem.Write | src/tinychess_test.py:88-92 | `write_text` succeeds exactly on a writable file, or on a new file in an existing directory; it sets that file's text and nothing else |
| WorkingSpace.FileSystem.Run | src/tinychess_test.py:21-31 | a command is issued (appended to the log) exactly when its cwd is a directory; the new tree is the old one with the command's effect applied below the cwd, and nothing outside the cwd changes; a command that is not issued changes nothing; the exit status is never read |
| WorkingSpace.AfterRunValid | src/tinychess_test.py:21-31 | a command's effect keeps the tree well formed, and its cwd stays a directory |
| WorkingSpace.AfterRunOutside | src/tinychess_test.py:21-31 | a command's effect changes nothing outside its cwd |
| WorkingSpace.FreshEmpties | src/tinychess_test.py:73-75 | `rmtree` then `mkdir` leaves the directory empty and everything outside it as it was |
| WorkingSpace.FreshOfAbsent | src/tinychess_test.py:75 | creating a directory that did not exist removes nothing |
| WorkingSpace.WrittenInside | src/tinychess_test.py:88-92 | rewriting a file below a directory keeps the tree well formed, adds no entry, and changes nothing outside that directory |
| WorkingSpace.StemSuffixSplitName | src/tinychess_test.py:169-170 | `stem + suffix == name`; the suffix is empty or a dot followed by at least one non-dot character; the suffix is non-empty exactly when the last dot of the name is neither its first nor its last character |
| Strings.RFind | src/tinychess_test.py:169-170 | the index of the last occurrence of the character, or -1 when it does not occur (what `stem` relies on) |
| Strings.ReplaceIsJoinOfSplit | src/tinychess_test.py:89-91 | `s.replace(pat, rep) == rep.join(s.split(pat))` for every text |
| Strings.JoinSplit | src/tinychess_test.py:89-91 | joining the pieces of a split with the separator gives back the text |
| Strings.SplitPartsAreFree | src/tinychess_test.py:89-91 | no piece of `s.split(pat)` contains `pat`: the pieces are exactly the text between occurrences |
| Strings.ReplaceAbsent | src/tinychess_test.py:89-91 | replacing a pattern that does not occur leaves the text unchanged |
| Strings.ReplaceIntroduces | src/tinychess_test.py:89-91 | when the pattern occurs, the replacement occurs in the result |
| Steps.RevisionDirsApart | src/tinychess_test.py:59 | the directories of two different revisions share no path |
| Steps.WithSourcesValid | src/tinychess_test.py:58 | creating the sources root and its ancestors keeps the tree well formed |
| Steps.FirstExisting | src/tinychess_test.py:136-145 | the probe finds nothing exactly when no candidate exists; what it finds exists, and every earlier candidate does not |
| Steps.ProbeOrder | src/tinychesstest.py:103-112 | `main.exe` when it exists, else `main` when it exists, else nothing |
| Steps.ResetOpsShape | src/tinychess_test.py:69-75 | resetting issues no command; it removes the directory exactly when it existed, and `TinyChess/.git` exactly when both existed, `.git` first; it ends by creating the directory |
| Steps.CloneOpsCommands | src/tinychess_test.py:77-79 | the clone steps are `git clone <url>` in the revision directory, then `git checkout <commit>` in its `TinyChess` |
| Steps.RebuildOpsShape | src/tinychess_test.py:124-134 | a rebuild issues exactly the generation command and then `cmake --build .`, both in `build`, after `build` is (re)created; it removes `build` exactly when it existed |
| Steps.DeleteDotGitDir | src/tinychess_test.py:34-46 | every file strictly below the path is made writable, then the tree is removed; this succeeds exactly when the path is a directory, and afterwards nothing at or below it exists; on failure only the read-only flags below the path have changed (identical to src/tinychesstest.py:32-44) |
| Steps.ClearDir | src/tinychess_test.py:69-73 | removing an existing revision directory succeeds exactly when it is a directory, its `.git` (if any) is a directory, and every read-only file in it lies in that `.git`; then nothing at or below it is left, and the trace holds the `.git` removal (when it existed) and the directory's; a failure changes nothing outside the directory and records a proper prefix of those removals |
| Steps.ResetDir | src/tinychess_test.py:69-75 | the reset succeeds exactly when the parent is a directory and an existing directory can be cleared; it then leaves the directory empty, everything else as it was, and the trace grown by the reset plan; a failure changes nothing outside the directory and records a proper prefix of the reset plan |
| Steps.ClonedOutside | src/tinychess_test.py:77-79 | a clone that succeeds keeps the tree well formed and changes nothing outside the revision directory |
| Steps.ClonedInEmpty | src/tinychess_test.py:77-79 | in an empty revision directory the clone step succeeds exactly when `git clone` makes `TinyChess`; everything below the directory afterwards was made by `git clone` or `git checkout`, and nothing outside it changed |
| Steps.CloneRevision | src/tinychess_test.py:77-79 | the two commands are issued exactly when the directory exists and the clone leaves the checkout directory; the tree is the one the two effects give, and the trace grows by the clone plan; a failure changes nothing outside the directory and records a proper prefix of the clone plan |
| Steps.RebuiltFromTools | src/tinychess_test.py:124-145 | after a rebuild, nothing outside `build` has changed and everything in it, the probed binary included, was made by the generation or the build command: a stale binary is never returned |
| Steps.RebuildAndProbe | src/tinychess_test.py:125-145 | creating `build` succeeds exactly when it does not exist and its parent is a directory; then the tree is the rebuilt one, the trace grows by the rebuild plan, a returned binary exists and is the probe's answer, and no binary means `BinaryNotFound`; otherwise nothing changes |
| UciName.PatchUciName | src/tinychess_test.py:84-92 | the file is rewritten exactly when the unquoted marker `id name TinyChess` occurs |
| UciName.QuotedPassesGuard | src/tinychess_test.py:84-91 | a quoted marker always passes the unquoted guard |
| UciName.UnquotedMarkerLeavesText | src/tinychess_test.py:84-91 | a text with the unquoted marker but no quoted one passes the guard, and is written back unchanged |
| UciName.PatchChangesOnlyMarkers | src/tinychess_test.py:88-92 | the patched text is the original's pieces between quoted markers, in order, joined by `"id name TinyChess-<commit>"`: nothing but the quoted markers changes |
| UciName.PatchNamesRevision | src/tinychess_test.py:88-92 | a quoted marker yields a `main.cpp` that contains `"id name TinyChess-<commit>"` |
| TinyChessTest.DefaultConfig | src/tinychess_test.py:12-18 | the sources root is `<cwd>/working/sources`, the clone URL is the upstream TinyChess repository, and the generator is `MinGW Makefiles` |
| TinyChessTest.CachedFetchOnlyPulls | src/tinychess_test.py:62-68 | with the cache in use and the directory present, the only command is `git pull` in `sources/<commit>/TinyChess`, and nothing is removed or created beyond the sources root |
| TinyChessTest.FreshFetchClonesThenChecksOut | src/tinychess_test.py:77-79 | otherwise the commands are exactly clone in `sources/<commit>`, then checkout in `sources/<commit>/TinyChess`, and every removal and creation comes before them |
| TinyChessTest.FreshFetchPlanReplacesDir | src/tinychess_test.py:69-75 | otherwise the directory is removed exactly when it existed, its `TinyChess/.git` first when that existed too, and it is created afresh |
| TinyChessTest.PullCached | src/tinychess_test.py:63-68 | `git pull` is issued in `sources/<commit>/TinyChess` exactly when that is a directory, and the result is that path; the tree is the pull's effect applied there, and nothing outside the checkout changes |
| TinyChessTest.PatchMainCpp | src/tinychess_test.py:81-92 | the patch succeeds exactly when `main.cpp` exists and, if the guard finds the marker, is writable; `main.cpp` is written, with the patched text, exactly when the guard finds the marker; otherwise the files and the trace stay as they were |
| TinyChessTest.FreshFetchReplacesTree | src/tinychess_test.py:69-92 | a fresh fetch changes nothing outside the revision directory, and everything in it came from `git clone` or `git checkout`: no file of an earlier checkout survives |
| TinyChessTest.FreshFetchMainCpp | src/tinychess_test.py:77-92 | the `main.cpp` read is the one `git checkout` left, or else the one `git clone` left; the fetched tree holds it patched exactly when it carries the unquoted marker |
| TinyChessTest.FreshFetch | src/tinychess_test.py:69-94 | the fresh fetch succeeds exactly when the reset, the clone and the patch can; it then leaves the fetched tree, returns `sources/<commit>/TinyChess`, reports whether the patch was written, and the trace is reset, clone and the optional write; a failure changes nothing outside the revision directory and records a proper prefix of reset, clone and write |
| TinyChessTest.FetchStaysInRevisionDir | src/tinychess_test.py:62-94 | whichever branch it takes, a completed fetch changes nothing outside the revision directory |
| TinyChessTest.FetchRevision | src/tinychess_test.py:62-94 | the cached branch when the cache is on and the directory exists, the fresh fetch otherwise; success, tree, trace and the patch report are those of the branch taken; a failure changes nothing outside the revision directory and records a proper prefix of the branch's steps (the cached branch's being the pull alone) |
| TinyChessTest.FetchSourceCode | src/tinychess_test.py:49-94 | the fetch succeeds exactly when the sources root can be made and the branch taken completes; the result is `sources/<commit>/TinyChess`; the tree is the branch's result on the tree with the sources root; the trace is the fetch plan for the cache setting and the state found, plus the write when the patch was applied, which never happens on the cached branch; a failure either changed nothing (the sources root could not be made) or changed nothing outside the revision directory beyond creating the sources root, and records a proper prefix of the creation of the sources root followed by the branch's steps |
| TinyChessTest.GenerateLine | src/tinychess_test.py:128-131 | the generation command starts with `cmake .. -G "<generator>"` and ends with ` -D CMAKE_BUILD_TYPE=<type>`, and is exactly as long as the two together, so it is exactly `cmake .. -G "<generator>" -D CMAKE_BUILD_TYPE=<type>` |
| TinyChessTest.CompileCmakeProject | src/tinychess_test.py:97-145 | on a cache hit (src/tinychess_test.py:111-122: cache on, `build` present, a binary found) the working space is untouched and the cached probe is returned; otherwise the rebuild succeeds up to the probe exactly when `build` can be replaced, the tree is the rebuilt one, the trace grows by the rebuild plan with the generation command; a returned binary exists and is the probe's answer, else `BinaryNotFound`; an OS error changes nothing outside `build` |
| TinyChessTest.SprtCommand | src/tinychess_test.py:172-178 | with the book on, the command ends with the openings clause |
| TinyChessTest.SprtBookAppends | src/tinychess_test.py:176-178 | the command with the book is the bookless command followed by ` -openings file=../Silver_opening_suite.pgn format=pgn ` |
| TinyChessTest.SprtCommandCarriesSettings | src/tinychess_test.py:172-175 | the command starts with `cutechess-cli -engine cmd=<stem1> -engine cmd=<stem2> -each ` and contains, as one piece, `proto=uci tc=<tc> timemargin=300 -sprt elo0=0 elo1=5 alpha=0.05 beta=0.05 -games <games> -concurrency <concurrency>`; the settings follow the engine entries at once, and the command is exactly as long as the two, plus the openings clause when the book is on |
| TinyChessTest.SprtCommandBookClause | src/tinychess_test.py:176-178 | the command ends with the openings clause exactly when the book is on |
| TinyChessTest.SprtAddressesByStem | src/tinychess_test.py:169-170 | binaries named `main.exe` or `main` are both addressed as `cmd=main` |
| TinyChessTest.RunSprt | src/tinychess_test.py:148-180 | differing parents fail with nothing changed; otherwise the one cutechess-cli command is issued with the shared parent as cwd, exactly when that parent is a directory, and the tree is the match's effect applied there |
| TinyChessTestPair.DefaultConfig | src/tinychesstest.py:12-16 | the sources root is `<cwd>/working/sources`, the clone URL is the upstream TinyChess repository, and the generator is `Ninja` |
| TinyChessTestPair.FetchPlanOrder | src/tinychesstest.py:62-78 | the commands are clone and checkout for engine 1, then clone and checkout for engine 2; every removal and creation comes before them |
| TinyChessTestPair.FetchPlanCreatesBoth | src/tinychesstest.py:62-70 | both revision directories are created afresh, engine 1's first |
| TinyChessTestPair.PreparedEmpties | src/tinychesstest.py:62-70 | after the loop both revision directories are empty and nothing outside the sources root changed; with equal revisions the second turn finds the directory the first made, without a `.git` |
| TinyChessTestPair.PrepareRevisionDirs | src/tinychesstest.py:62-70 | the loop succeeds exactly when both turns can reset their directory; it then leaves both directories empty (the prepared tree), and the trace holds engine 1's reset and then engine 2's, each with what it found at its turn; a failure changes nothing outside the sources root and records a proper prefix of the two resets |
| TinyChessTestPair.SecondTurnFinds | src/tinychesstest.py:62-70 | once engine 1's directory is reset, engine 2's turn finds its directory exactly when the revisions are equal or it existed before, and its `.git` exactly when the revisions differ and it existed before |
| TinyChessTestPair.CloneBoth | src/tinychesstest.py:72-78 | both clones succeed exactly when each, at its turn, finds its directory and its clone leaves the checkout; the tree is the one the four effects give, and the trace grows by clone and checkout for engine 1, then for engine 2; a failure changes nothing outside the sources root and records a proper prefix of the four commands |
| TinyChessTestPair.FetchReplacesBoth | src/tinychesstest.py:56-78 | for two different revisions, nothing outside the sources root changes but for creating it, and each revision directory holds only what its own clone and checkout made |
| TinyChessTestPair.FetchSourceCode | src/tinychesstest.py:47-80 | the fetch succeeds exactly when the sources root can be made, both directories can be prepared and both clones succeed; the tree is the fetched one, the result is the pair of `TinyChess` checkouts, and the trace is the two-engine fetch plan; a failure either changed nothing or changed nothing outside the sources root beyond creating it, and records a proper prefix of the fetch plan |
| TinyChessTestPair.FetchRevisions | src/tinychesstest.py:62-78 | once the sources root exists, preparation and both clones succeed exactly when both turns can reset and each clone, at its turn, leaves its checkout; the tree is both clones on the prepared tree, the trace is both resets then both clone-and-checkout pairs; a failure changes nothing outside the sources root and records a proper prefix of those steps |
| TinyChessTestPair.GenerateLine | src/tinychesstest.py:98 | the generation command starts with `cmake .. -G "` and ends with the generator and a closing quote, and is exactly as long as the two, so it is exactly `cmake .. -G "<generator>"`, with no build type |
| TinyChessTestPair.CompileCmakeProject | src/tinychesstest.py:83-112 | an existing `build` is always removed; the rebuild succeeds up to the probe exactly when `build` can be replaced; the tree is the rebuilt one and the trace grows by the rebuild plan with `cmake .. -G "Ninja"`; a returned binary exists and is the probe's answer, else `BinaryNotFound`; an OS error changes nothing outside `build` |

## Left out

- What git, cmake and cutechess-cli do is not modelled. Each command's effect is a parameter, so clone contents, compilation, match play and the SPRT statistics are outside the model.
- WorkingSpace.FileSystem.Run: a command's effect is confined to what lies strictly below its working directory, and entries it leaves without a parent directory are dropped. A tool that writes elsewhere (git's global configuration, cutechess-cli writing into `..`) or removes its own working directory is not modelled.
- Process execution, exit codes and shell quoting are not modelled. The scripts never read an exit status, so a command counts as issued whenever its working directory exists.
- Logging is not modelled. That includes the operator-precedence slips in the log messages of `run_cmd` (src/tinychess_test.py:28-30) and `run_sprt` (src/tinychess_test.py:166), which change only log text.
- Permission bits are reduced to one read-only flag per file.
- `rmtree` follows Windows semantics: a read-only file blocks the removal. That is why `.git` is made writable first. On POSIX a read-only file does not block removal.
- WorkingSpace.FileSystem.RemoveTree: after a failure, what it had already removed below the path is left unspecified.
- WorkingSpace.FileSystem.ReadText: file contents are the decoded text. Text-mode newline translation (`\r\n` and `\r` read as `\n`) and locale decoding errors (`UnicodeDecodeError`) are not modelled.
- WorkingSpace.FileSystem.Write: writing stores the text as given. Text mode writes each `\n` as `os.linesep` (CRLF on Windows), which is not modelled.
- UciName.PatchChangesOnlyMarkers: "nothing else changes" holds for the decoded, newline-normalised text, not for the bytes on disk, which change line endings on Windows.
- WorkingSpace.FileSystem.Exists: paths compare exactly. Windows compares them case-insensitively, so `exists()`, `rmtree` and the equal-parents assertion of `run_sprt` (src/tinychess_test.py:167) may treat differently-cased paths as one where the model does not.
- A revision string containing a path separator, or an empty one, is still treated as one segment. `Path` would split it or drop it.
- `Path.cwd()` and the module globals are a `Config` value, not ambient state.
- `run_sprt`'s `assert` is modelled as always active. It disappears under `python -O`.
- src/main.py is not part of this model. It is an argparse front end that normalises its arguments.
- src/silver_opening_suite.py is not part of this model. It decodes and decompresses an embedded opening book.
- Concurrent use of the working space is not modelled.
- TinyChessTest.SprtCommandBookClause requires that the concurrency text is empty or does not end in a blank. A concurrency ending in ` -openings file=../Silver_opening_suite.pgn format=pgn ` would make a bookless command end with the clause as well. The other direction, that a command with the book ends with the clause, holds unconditionally (`TinyChessTest.SprtCommand`).
- TinyChessTestPair.FetchReplacesBoth is stated for two different revisions. With equal revisions the second clone runs in the directory the first one filled; the model still gives the resulting tree (`TinyChessTestPair.Fetched`) but no lemma describes its contents.

=== FILE: steps.dfy ===
/** The steps that both pipeline scripts share: the working-space layout, the
    binary probe, removing a `.git` directory, replacing a source directory by
    a fresh empty one, and rebuilding a CMake project. Each step that changes
    the working space is proved against a plan: the sequence of steps it
    completes. */
module Steps {
  import opened WorkingSpace

  const GitCloneUrl := "https://github.com/Bobingstern/TinyChess"

  /** What the scripts keep in module globals: the working root
      (`Path.cwd() / "working"`), the upstream repository and the CMake
      generator. */
  datatype Config = Config(workingSpace: Path, cloneUrl: string, generator: string)

  function SourceCodeDir(cfg: Config): Path {
    cfg.workingSpace + ["sources"]
  }

  /** `SOURCE_CODE_DIR / commit`: a revision is one path segment. */
  function RevisionDir(cfg: Config, commit: string): Path {
    SourceCodeDir(cfg) + [commit]
  }

  /** The checkout inside a revision directory. */
  function TreeOf(dir: Path): Path {
    dir + ["TinyChess"]
  }

  function GitDirOf(dir: Path): Path {
    dir + ["TinyChess", ".git"]
  }

  function BuildDirOf(tree: Path): Path {
    tree + ["build"]
  }

  /** Different revisions live in directories that share nothing. */
  lemma RevisionDirsApart(cfg: Config, commit1: string, commit2: string)
    requires commit1 != commit2
    ensures forall p :: Under(p, RevisionDir(cfg, commit1)) ==> !Under(p, RevisionDir(cfg, commit2))
  {
    var dir1, dir2 := RevisionDir(cfg, commit1), RevisionDir(cfg, commit2);
    assert dir1[|dir1| - 1] == commit1 && dir2[|dir2| - 1] == commit2;
  }

  /** The names a compiled engine may have, in the order they are tried. */
  const BinaryNames: seq<string> := ["main.exe", "main"]

  /** `SOURCE_CODE_DIR.mkdir(parents=True, exist_ok=True)` succeeds: no
      ancestor of the sources root is a file. */
  predicate SourcesCreatable(t: Tree, cfg: Config) {
    Ancestors(SourceCodeDir(cfg)) !! t.files.Keys
  }

  /** The tree once the sources root and its ancestors exist. */
  function WithSources(t: Tree, cfg: Config): Tree {
    t.WithDirs(Ancestors(SourceCodeDir(cfg)))
  }

  /** Creating the sources root keeps a tree well formed. */
  lemma WithSourcesValid(t: Tree, cfg: Config)
    requires t.Valid() && SourcesCreatable(t, cfg)
    ensures WithSources(t, cfg).Valid()
  {
    var sources := SourceCodeDir(cfg);
    forall q | q in Ancestors(sources)
      ensures Rooted(q, WithSources(t, cfg).dirs)
    {
      var k :| 1 <= k <= |sources| && q == sources[..k];
      forall i | 1 <= i < |q|
        ensures q[..i] in Ancestors(sources)
      {
        assert q[..i] == sources[..i];
      }
    }
  }

  /** The first `dir + [name]` that exists, trying `names` in order. */
  function FirstExisting(present: set<Path>, dir: Path, names: seq<string>): (r: Option<Path>)
    ensures r.None? <==> forall i :: 0 <= i < |names| ==> dir + [names[i]] !in present
    ensures r.Some? ==> exists i :: 0 <= i < |names| && r.value == dir + [names[i]] && r.value in present
                                    && forall j :: 0 <= j < i ==> dir + [names[j]] !in present
  {
    if |names| == 0 then None
    else if dir + [names[0]] in present then Some(dir + [names[0]])
    else
      var r := FirstExisting(present, dir, names[1..]);
      assert forall i :: 1 <= i < |names| ==> names[i] == names[1..][i - 1];
      r
  }

  /** The binary found in a build directory. */
  function Probe(present: set<Path>, build: Path): Option<Path> {
    FirstExisting(present, build, BinaryNames)
  }

  /** `main.exe` wins over `main`; with neither, nothing is found. */
  lemma ProbeOrder(present: set<Path>, build: Path)
    ensures build + ["main.exe"] in present ==> Probe(present, build) == Some(build + ["main.exe"])
    ensures (build + ["main.exe"] !in present && build + ["main"] in present)
              ==> Probe(present, build) == Some(build + ["main"])
    ensures (build + ["main.exe"] !in present && build + ["main"] !in present)
              ==> Probe(present, build) == None
  {
    var r := Probe(present, build);
    if r.Some? {
      var i :| 0 <= i < |BinaryNames| && r.value == build + [BinaryNames[i]] && r.value in present
               && forall j :: 0 <= j < i ==> build + [BinaryNames[j]] !in present;
      assert i == 0 || i == 1;
    } else {
      assert build + [BinaryNames[0]] !in present && build + [BinaryNames[1]] !in present;
    }
  }

  /** The steps that remove an existing `dir`, given whether its
      `TinyChess/.git` existed. */
  function ClearOps(dir: Path, hadGit: bool): seq<Op> {
    (if hadGit then [Rmtree(GitDirOf(dir))] else []) + [Rmtree(dir)]
  }

  /** The steps that replace `dir` by a fresh empty directory, given whether
      `dir` and its `TinyChess/.git` existed. */
  function ResetOps(dir: Path, hadDir: bool, hadGit: bool): seq<Op> {
    (if hadDir then (if hadGit then [Rmtree(GitDirOf(dir))] else []) + [Rmtree(dir)] else [])
    + [Mkdir(dir)]
  }

  /** Resetting an existing directory is clearing it and creating it again. */
  lemma ResetIsClearThenMkdir(dir: Path, hadDir: bool, hadGit: bool)
    ensures ResetOps(dir, hadDir, hadGit) == (if hadDir then ClearOps(dir, hadGit) else []) + [Mkdir(dir)]
  {
  }

  /** `git clone <url>` in `dir`, then `git checkout <commit>` in the checkout. */
  function CloneOps(cfg: Config, commit: string, dir: Path): seq<Op> {
    [RunCmd(Command("git clone " + cfg.cloneUrl, dir)),
     RunCmd(Command("git checkout " + commit, TreeOf(dir)))]
  }

  /** The steps that rebuild in `build` with the generation command `generate`. */
  function RebuildOps(build: Path, generate: string, hadBuild: bool): seq<Op> {
    (if hadBuild then [Rmtree(build)] else [])
    + [Mkdir(build), RunCmd(Command(generate, build)), RunCmd(Command("cmake --build .", build))]
  }

  /** The rebuild plan of an existing `build` is its removal followed by the
      rebuild plan of an absent one. */
  lemma RebuildOpsAfterRemoval(build: Path, generate: string)
    ensures [Rmtree(build)] + RebuildOps(build, generate, false) == RebuildOps(build, generate, true)
  {
  }

  /** Once a command has been issued, no further step touches the file system:
      every directory is prepared before the first command runs. */
  predicate PreparesBeforeRunning(ops: seq<Op>) {
    forall i, j :: 0 <= i < j < |ops| && ops[i].RunCmd? ==> ops[j].RunCmd?
  }

  /** Preparation steps followed by commands prepare before running. */
  lemma PrepareThenRun(prep: seq<Op>, runs: seq<Op>)
    requires forall op :: op in prep ==> !op.RunCmd?
    requires forall op :: op in runs ==> op.RunCmd?
    ensures PreparesBeforeRunning(prep + runs)
  {
    var ops := prep + runs;
    forall i, j | 0 <= i < j < |ops| && ops[i].RunCmd?
      ensures ops[j].RunCmd?
    {
      assert ops[j] == runs[j - |prep|];
    }
  }

  /** The clone steps are the two git commands, in order. */
  lemma CloneOpsCommands(cfg: Config, commit: string, dir: Path)
    ensures Commands(CloneOps(cfg, commit, dir)) == [Command("git clone " + cfg.cloneUrl, dir),
                                                     Command("git checkout " + commit, TreeOf(dir))]
    ensures forall op :: op in CloneOps(cfg, commit, dir) ==> op.RunCmd?
  {
    var clone := CloneOps(cfg, commit, dir);
    assert clone == [clone[0]] + [clone[1]];
    CommandsAppend([clone[0]], [clone[1]]);
    CommandsOne(clone[0]);
    CommandsOne(clone[1]);
  }

  /** Resetting issues no command, removes `.git` before the directory holding
      it, and ends by creating the directory. */
  lemma ResetOpsShape(dir: Path, hadDir: bool, hadGit: bool)
    ensures Commands(ResetOps(dir, hadDir, hadGit)) == []
    ensures forall op :: op in ResetOps(dir, hadDir, hadGit) ==> !op.RunCmd?
    ensures ResetOps(dir, hadDir, hadGit)[|ResetOps(dir, hadDir, hadGit)| - 1] == Mkdir(dir)
    ensures Rmtree(dir) in ResetOps(dir, hadDir, hadGit) <==> hadDir
    ensures Rmtree(GitDirOf(dir)) in ResetOps(dir, hadDir, hadGit) <==> hadDir && hadGit
    ensures hadDir && hadGit ==> ResetOps(dir, hadDir, hadGit)[..2] == [Rmtree(GitDirOf(dir)), Rmtree(dir)]
  {
    var ops := ResetOps(dir, hadDir, hadGit);
    assert GitDirOf(dir) != dir by { assert |GitDirOf(dir)| == |dir| + 2; }
    CommandsNone(ops);
    if hadDir && hadGit {
      assert ops == [Rmtree(GitDirOf(dir)), Rmtree(dir), Mkdir(dir)];
    } else if hadDir {
      assert ops == [Rmtree(dir), Mkdir(dir)];
    } else {
      assert ops == [Mkdir(dir)];
    }
  }

  /** The rebuild issues exactly the generation and the build command, both in
      `build`, and only after the build directory was (re)created. */
  lemma RebuildOpsShape(build: Path, generate: string, hadBuild: bool)
    ensures Commands(RebuildOps(build, generate, hadBuild))
              == [Command(generate, build), Command("cmake --build .", build)]
    ensures PreparesBeforeRunning(RebuildOps(build, generate, hadBuild))
    ensures Rmtree(build) in RebuildOps(build, generate, hadBuild) <==> hadBuild
    ensures Mkdir(build) in RebuildOps(build, generate, hadBuild)
  {
    var ops := RebuildOps(build, generate, hadBuild);
    var tail := [Mkdir(build), RunCmd(Command(generate, build)), RunCmd(Command("cmake --build .", build))];
    assert Commands(tail) == [Command(generate, build), Command("cmake --build .", build)] by {
      assert tail == [tail[0]] + ([tail[1]] + [tail[2]]);
      CommandsAppend([tail[0]], [tail[1]] + [tail[2]]);
      CommandsAppend([tail[1]], [tail[2]]);
      CommandsOne(tail[0]);
      CommandsOne(tail[1]);
      CommandsOne(tail[2]);
    }
    if hadBuild {
      assert ops == [Rmtree(build)] + tail;
      CommandsAppend([Rmtree(build)], tail);
    } else {
      assert ops == tail;
    }
  }

  /** `delete_dot_git_dir(path)`: make every file below `path` writable, then
      remove the tree. Removal succeeds exactly when `path` is a directory:
      no read-only file below it is left to block it. */
  method DeleteDotGitDir(fs: FileSystem, path: Path) returns (o: Outcome)
    requires fs.Valid()
    modifies fs
    ensures fs.Valid()
    ensures o.Pass? <==> path in old(fs.dirs)
    ensures o.Pass? ==> && fs.dirs == old(fs.dirs) - Within(old(fs.dirs), path)
                        && fs.files == old(fs.files) - Within(old(fs.files.Keys), path)
                        && fs.readOnly == old(fs.readOnly) - Below(old(fs.files.Keys), path)
                        && fs.trace == old(fs.trace) + [Rmtree(path)]
    ensures o.Fail? ==> && fs.dirs == old(fs.dirs) && fs.files == old(fs.files) && fs.trace == old(fs.trace)
                        && fs.readOnly == old(fs.readOnly) - Below(old(fs.files.Keys), path)
                        && o.error.OsError?
  {
    var pending := Below(fs.files.Keys, path);
    while pending != {}
      invariant fs.Valid()
      invariant pending <= Below(old(fs.files.Keys), path)
      invariant fs.dirs == old(fs.dirs) && fs.files == old(fs.files) && fs.trace == old(fs.trace)
      invariant fs.readOnly == old(fs.readOnly) - (Below(old(fs.files.Keys), path) - pending)
      decreases pending
    {
      var p :| p in pending;
      fs.MakeWritable(p);
      pending := pending - {p};
    }
    if path in fs.dirs {
      forall q | q in fs.readOnly
        ensures q !in Within(fs.readOnly, path)
      {
        assert q in fs.files && q != path;
      }
      assert Within(fs.readOnly, path) == {};
    }
    o := fs.RemoveTree(path);
  }

  /** Removing `dir`, which exists, succeeds when it is a directory, its
      `TinyChess/.git` (when present) is a directory, and every read-only
      file in it lies in that `.git`, whose files are made writable first.
      Then nothing at or below `dir` is left. */
  predicate CanClear(t: Tree, dir: Path) {
    && dir in t.dirs
    && (t.Exists(GitDirOf(dir)) ==> GitDirOf(dir) in t.dirs)
    && forall q :: q in t.readOnly && Under(q, dir) ==> Under(q, GitDirOf(dir))
  }

  /** Resetting `dir` succeeds exactly when it has a parent directory and, if
      it exists, it can be removed. */
  predicate CanReset(t: Tree, dir: Path) {
    |dir| > 0 && Parent(dir) in t.dirs && (t.Exists(dir) ==> CanClear(t, dir))
  }

  /** Everything below the `.git` of `dir` is below `dir`. */
  lemma GitDirUnder(dir: Path)
    ensures Under(GitDirOf(dir), dir) && GitDirOf(dir) != dir
    ensures forall q :: Under(q, GitDirOf(dir)) ==> Under(q, dir)
  {
    var git := GitDirOf(dir);
    assert git[..|dir|] == dir;
    forall q | Under(q, git)
      ensures Under(q, dir)
    {
      assert q[..|dir|] == q[..|git|][..|dir|];
    }
  }

  /** The removal half of the directory-preparation step: for an existing
      `dir`, remove its `TinyChess/.git` when present, then `dir` itself. */
  method ClearDir(fs: FileSystem, dir: Path) returns (o: Outcome)
    requires fs.Valid() && fs.Exists(dir)
    modifies fs
    ensures fs.Valid()
    ensures o.Pass? <==> CanClear(old(fs.View()), dir)
    ensures o.Pass? ==> && fs.View() == old(fs.View()).Outside(dir)
                        && fs.trace == old(fs.trace) + ClearOps(dir, old(fs.Exists(GitDirOf(dir))))
    ensures o.Fail? ==> && o.error.OsError? && fs.View().Outside(dir) == old(fs.View()).Outside(dir)
                        && Interrupted(old(fs.trace), fs.trace, ClearOps(dir, old(fs.Exists(GitDirOf(dir)))))
  {
    ghost var t, start := fs.View(), fs.trace;
    var git := GitDirOf(dir);
    GitDirUnder(dir);
    if fs.Exists(git) {
      o := DeleteDotGitDir(fs, git);
      assert fs.View().Outside(dir) == t.Outside(dir);
      if o.Fail? {
        InterruptedAtStart(start, ClearOps(dir, true));
        return;
      }
      assert forall q :: q in fs.readOnly && Under(q, dir) <==> q in t.readOnly && Under(q, dir) && !Under(q, git);
    } else {
      forall q | q in t.readOnly && Under(q, git)
        ensures false
      {
        AncestorIsDir(t, q, git);
      }
    }
    ghost var readOnly := fs.readOnly;
    o := fs.RemoveTree(dir);
    if o.Fail? {
      InterruptedAfter(start, if t.Exists(git) then [Rmtree(git)] else [], [Rmtree(dir)]);
      if dir in t.dirs {
        var q :| q in Within(readOnly, dir);
        assert q in t.readOnly && Under(q, dir) && !Under(q, git);
      }
      return;
    }
    assert fs.View() == t.Outside(dir);
  }

  /** The directory-preparation step of `fetch_source_code`: remove `dir`
      (its `TinyChess/.git` first, when present) and create it afresh. */
  method ResetDir(fs: FileSystem, dir: Path) returns (o: Outcome)
    requires fs.Valid()
    modifies fs
    ensures fs.Valid()
    ensures o.Pass? <==> CanReset(old(fs.View()), dir)
    ensures o.Pass? ==> && fs.View() == old(fs.View()).Fresh(dir)
                        && fs.trace == old(fs.trace) + ResetOps(dir, old(fs.Exists(dir)), old(fs.Exists(GitDirOf(dir))))
                        && Within(fs.Entries(), dir) == {dir}
    ensures o.Fail? ==> && o.error.OsError? && fs.View().Outside(dir) == old(fs.View()).Outside(dir)
                        && Interrupted(old(fs.trace), fs.trace,
                                       ResetOps(dir, old(fs.Exists(dir)), old(fs.Exists(GitDirOf(dir)))))
  {
    ghost var t, start := fs.View(), fs.trace;
    ghost var cleared := if t.Exists(dir) then ClearOps(dir, t.Exists(GitDirOf(dir))) else [];
    ResetIsClearThenMkdir(dir, t.Exists(dir), t.Exists(GitDirOf(dir)));
    if fs.Exists(dir) {
      o := ClearDir(fs, dir);
      if o.Fail? {
        InterruptedSooner(start, fs.trace, cleared, [Mkdir(dir)]);
        return;
      }
    } else {
      assert fs.trace == start + cleared;
      if |dir| > 0 {
        FreshOfAbsent(t, dir);
      }
    }
    ghost var tree := fs.View();
    assert |dir| > 0 ==> (Parent(dir) in fs.dirs <==> Parent(dir) in t.dirs);
    o := fs.MakeDir(dir);
    if o.Fail? {
      InterruptedAfter(start, cleared, [Mkdir(dir)]);
    } else {
      assert fs.View() == tree.WithDirs({dir});
    }
  }

  /** The clone step succeeds: `dir` is a directory, and the clone leaves the
      checkout `TinyChess` as a directory for the checkout command. */
  predicate CloneSucceeds(t: Tree, dir: Path, cloned: Effect) {
    dir in t.dirs && TreeOf(dir) in t.AfterRun(dir, cloned).dirs
  }

  /** The tree after `git clone` in `dir` and `git checkout` in its checkout. */
  function Cloned(t: Tree, dir: Path, cloned: Effect, checkedOut: Effect): Tree {
    t.AfterRun(dir, cloned).AfterRun(TreeOf(dir), checkedOut)
  }

  /** A clone that succeeds keeps the tree well formed and changes nothing
      outside `dir`. */
  lemma ClonedOutside(t: Tree, dir: Path, cloned: Effect, checkedOut: Effect)
    requires t.Valid() && cloned.Valid() && checkedOut.Valid() && CloneSucceeds(t, dir, cloned)
    ensures Cloned(t, dir, cloned, checkedOut).Valid()
    ensures Cloned(t, dir, cloned, checkedOut).Outside(dir) == t.Outside(dir)
  {
    var s := t.AfterRun(dir, cloned);
    AfterRunValid(t, dir, cloned);
    AfterRunValid(s, TreeOf(dir), checkedOut);
    AfterRunOutside(t, dir, cloned);
    AfterRunOutside(s, TreeOf(dir), checkedOut);
    assert Under(TreeOf(dir), dir) by {
      assert TreeOf(dir)[..|dir|] == dir;
    }
    OutsideWiden(s.AfterRun(TreeOf(dir), checkedOut), s, TreeOf(dir), dir);
  }

  /** Cloning into `dir` changes nothing outside it, and into an empty `dir`
      the clone always leaves its checkout when the clone's effect makes it;
      all that lies below `dir` afterwards was made by git. */
  lemma ClonedInEmpty(t: Tree, dir: Path, cloned: Effect, checkedOut: Effect)
    requires t.Valid() && cloned.Valid() && checkedOut.Valid()
    requires dir in t.dirs && Within(t.Entries(), dir) == {dir}
    ensures CloneSucceeds(t, dir, cloned) <==> TreeOf(dir) in cloned.made.dirs
    ensures CloneSucceeds(t, dir, cloned) ==>
              && Cloned(t, dir, cloned, checkedOut).Valid()
              && Cloned(t, dir, cloned, checkedOut).Outside(dir) == t.Outside(dir)
              && forall p :: p in Cloned(t, dir, cloned, checkedOut).Entries() && Under(p, dir) && p != dir ==>
                   p in cloned.made.Entries() || p in checkedOut.made.Entries()
  {
    var tree := TreeOf(dir);
    var s := t.AfterRun(dir, cloned);
    AfterRunValid(t, dir, cloned);
    AfterRunBelow(t, dir, cloned);
    assert Under(tree, dir) && tree != dir by {
      assert tree[..|dir|] == dir;
    }
    assert tree !in Within(t.Entries(), dir);
    if tree in cloned.made.dirs {
      AfterRunChild(t, dir, cloned, "TinyChess");
    }
    if CloneSucceeds(t, dir, cloned) {
      var c := s.AfterRun(tree, checkedOut);
      AfterRunValid(s, tree, checkedOut);
      AfterRunBelow(s, tree, checkedOut);
      AfterRunOutside(t, dir, cloned);
      AfterRunOutside(s, tree, checkedOut);
      OutsideWiden(c, s, tree, dir);
      forall p | p in c.Entries() && Under(p, dir) && p != dir
        ensures p in cloned.made.Entries() || p in checkedOut.made.Entries()
      {
        if p !in checkedOut.made.Entries() {
          if p in c.dirs {
            assert p in s.dirs;
          } else {
            assert p in s.files;
          }
          assert p !in Within(t.Entries(), dir);
        }
      }
    }
  }

  /** `git clone <url>` in `dir`, then `git checkout <commit>` in the
      checkout; `cloned` and `checkedOut` are what the two commands do. */
  method CloneRevision(fs: FileSystem, cfg: Config, commit: string, dir: Path, cloned: Effect, checkedOut: Effect)
    returns (o: Outcome)
    requires fs.Valid() && cloned.Valid() && checkedOut.Valid()
    modifies fs
    ensures fs.Valid()
    ensures o.Pass? <==> CloneSucceeds(old(fs.View()), dir, cloned)
    ensures o.Pass? ==> && fs.View() == Cloned(old(fs.View()), dir, cloned, checkedOut)
                        && fs.trace == old(fs.trace) + CloneOps(cfg, commit, dir)
    ensures o.Fail? ==> && o.error.OsError? && fs.View().Outside(dir) == old(fs.View()).Outside(dir)
                        && Interrupted(old(fs.trace), fs.trace, CloneOps(cfg, commit, dir))
  {
    ghost var start := fs.trace;
    var clone, checkout := Command("git clone " + cfg.cloneUrl, dir), Command("git checkout " + commit, TreeOf(dir));
    o := fs.Run(clone, cloned);
    if o.Fail? {
      InterruptedAtStart(start, CloneOps(cfg, commit, dir));
      return;
    }
    o := fs.Run(checkout, checkedOut);
    if o.Fail? {
      assert CloneOps(cfg, commit, dir) == [RunCmd(clone)] + [RunCmd(checkout)];
      InterruptedAfter(start, [RunCmd(clone)], [RunCmd(checkout)]);
    }
  }

  /** Rebuilding in `build` succeeds up to the probe exactly when `build` has
      a parent directory and, if it exists, is a directory holding no
      read-only file. */
  predicate CanRebuild(t: Tree, build: Path) {
    |build| > 0 && Parent(build) in t.dirs && (t.Exists(build) ==> build in t.dirs && Within(t.readOnly, build) == {})
  }

  /** The tree after a rebuild: `build` emptied, then the generation and the
      build command run in it. */
  function Rebuilt(t: Tree, build: Path, generated: Effect, built: Effect): Tree {
    t.Fresh(build).AfterRun(build, generated).AfterRun(build, built)
  }

  /** A rebuild changes nothing outside `build`, and everything in `build`
      afterwards, the binary it finds included, was made by cmake: a binary
      left over from an earlier build is never found. */
  lemma RebuiltFromTools(t: Tree, build: Path, generated: Effect, built: Effect)
    requires t.Valid() && generated.Valid() && built.Valid() && CanRebuild(t, build)
    ensures var r := Rebuilt(t, build, generated, built);
            && r.Valid() && build in r.dirs
            && r.Outside(build) == t.Outside(build)
            && (forall p :: p in r.Entries() && Under(p, build) && p != build ==>
                  p in generated.made.Entries() || p in built.made.Entries())
            && (Probe(r.Entries(), build).Some? ==>
                  Probe(r.Entries(), build).value in generated.made.Entries() + built.made.Entries())
  {
    var f := t.Fresh(build);
    FreshEmpties(t, build);
    var g := f.AfterRun(build, generated);
    AfterRunValid(f, build, generated);
    AfterRunValid(g, build, built);
    AfterRunOutside(f, build, generated);
    AfterRunOutside(g, build, built);
    AfterRunBelow(f, build, generated);
    AfterRunBelow(g, build, built);
    var r := g.AfterRun(build, built);
    var found := Probe(r.Entries(), build);
    if found.Some? {
      assert Under(found.value, build) && found.value != build by {
        assert found.value == build + ["main.exe"] || found.value == build + ["main"];
        assert found.value[..|build|] == build;
      }
    }
  }

  /** The rebuild-and-probe tail of `compile_cmake_project`, for a `build`
      that does not exist: create it, generate, build, then look for the
      binary. */
  method RebuildAndProbe(fs: FileSystem, build: Path, generate: string, generated: Effect, built: Effect)
    returns (r: Result<Path>)
    requires fs.Valid() && generated.Valid() && built.Valid()
    modifies fs
    ensures fs.Valid()
    ensures (r.Ok? || r == Err(BinaryNotFound)) <==> !old(fs.Exists(build)) && |build| > 0 && Parent(build) in old(fs.dirs)
    ensures (r.Ok? || r == Err(BinaryNotFound)) ==>
              && fs.View() == Rebuilt(old(fs.View()), build, generated, built)
              && fs.trace == old(fs.trace) + RebuildOps(build, generate, false)
    ensures r.Ok? ==> Probe(fs.Entries(), build) == Some(r.value) && fs.Exists(r.value)
    ensures r == Err(BinaryNotFound) ==> Probe(fs.Entries(), build) == None
    ensures r.Err? && r.error.OsError? ==> fs.View() == old(fs.View()) && fs.trace == old(fs.trace)
  {
    ghost var t := fs.View();
    var o := fs.MakeDir(build);
    if o.Fail? {
      return Err(o.error);
    }
    FreshOfAbsent(t, build);
    // `build` was just created, and a command keeps its working directory.
    o := fs.Run(Command(generate, build), generated);
    o := fs.Run(Command("cmake --build .", build), built);
    var found := Probe(fs.Entries(), build);
    if found.None? {
      return Err(BinaryNotFound);
    }
    r := Ok(found.value);
  }
}

=== FILE: strings.dfy ===
/** Text operations the pipeline relies on, with Python's `str` semantics:
    `pat in s`, `s.replace(pat, rep)`, `s.split(sep)`, `sep.join(parts)`
    and `s.rfind(c)`. */
module Strings {

  predicate StartsWith(s: string, prefix: string) {
    |prefix| <= |s| && s[..|prefix|] == prefix
  }

  predicate EndsWith(s: string, suffix: string) {
    |suffix| <= |s| && s[|s| - |suffix|..] == suffix
  }

  /** Python's `pat in s`: an occurrence of `pat` starts at some position of `s`. */
  predicate Contains(s: string, pat: string)
    decreases |s|
  {
    StartsWith(s, pat) || (|s| > 0 && Contains(s[1..], pat))
  }

  /** An occurrence at position `i` makes `Contains` true. */
  lemma {:induction false} ContainsAt(s: string, pat: string, i: nat)
    requires i + |pat| <= |s| && s[i..i + |pat|] == pat
    ensures Contains(s, pat)
    decreases i
  {
    if i == 0 {
      assert s[..|pat|] == s[0..|pat|];
    } else {
      assert s[1..][i - 1..i - 1 + |pat|] == s[i..i + |pat|];
      ContainsAt(s[1..], pat, i - 1);
    }
  }

  /** `Contains` is witnessed by a position: the two readings of `in` agree. */
  lemma {:induction false} ContainsWitness(s: string, pat: string) returns (i: nat)
    requires Contains(s, pat)
    ensures i + |pat| <= |s| && s[i..i + |pat|] == pat
    decreases |s|
  {
    if StartsWith(s, pat) {
      i := 0;
      assert s[0..|pat|] == s[..|pat|];
    } else {
      var j := ContainsWitness(s[1..], pat);
      i := j + 1;
      assert s[i..i + |pat|] == s[1..][j..j + |pat|];
    }
  }

  /** A text that contains `outer` contains every piece of `outer`. */
  lemma ContainsPiece(s: string, outer: string, inner: string, k: nat)
    requires Contains(s, outer)
    requires k + |inner| <= |outer| && outer[k..k + |inner|] == inner
    ensures Contains(s, inner)
  {
    var i := ContainsWitness(s, outer);
    assert s[i + k..i + k + |inner|] == inner by {
      forall j | 0 <= j < |inner|
        ensures s[i + k + j] == inner[j]
      {
        assert outer[k + j] == inner[j];
        assert s[i..i + |outer|][k + j] == s[i + k + j];
      }
    }
    ContainsAt(s, inner, i + k);
  }

  /** Python's `s.replace(pat, rep)` for a non-empty `pat`: occurrences are
      found left to right and do not overlap. */
  function ReplaceAll(s: string, pat: string, rep: string): string
    requires |pat| > 0
    decreases |s|
  {
    if |s| == 0 then s
    else if StartsWith(s, pat) then rep + ReplaceAll(s[|pat|..], pat, rep)
    else [s[0]] + ReplaceAll(s[1..], pat, rep)
  }

  /** Python's `s.split(sep)` for a non-empty `sep`. */
  function Split(s: string, sep: string): (parts: seq<string>)
    requires |sep| > 0
    ensures |parts| >= 1
    decreases |s|
  {
    if |s| == 0 then [""]
    else if StartsWith(s, sep) then [""] + Split(s[|sep|..], sep)
    else
      var rest := Split(s[1..], sep);
      [[s[0]] + rest[0]] + rest[1..]
  }

  /** Python's `sep.join(parts)` for a non-empty list. */
  function Join(parts: seq<string>, sep: string): string
    requires |parts| >= 1
  {
    if |parts| == 1 then parts[0] else parts[0] + sep + Join(parts[1..], sep)
  }

  /** Prepending a character to the first part prepends it to the joined text. */
  lemma JoinCons(c: char, parts: seq<string>, sep: string)
    requires |parts| >= 1
    ensures Join([[c] + parts[0]] + parts[1..], sep) == [c] + Join(parts, sep)
  {
    var ps := [[c] + parts[0]] + parts[1..];
    if |parts| > 1 {
      assert ps[1..] == parts[1..];
    }
  }

  /** Splitting and joining back with the same separator gives the text back. */
  lemma {:induction false} JoinSplit(s: string, sep: string)
    requires |sep| > 0
    ensures Join(Split(s, sep), sep) == s
    decreases |s|
  {
    if |s| == 0 {
    } else if StartsWith(s, sep) {
      var rest := Split(s[|sep|..], sep);
      JoinSplit(s[|sep|..], sep);
      assert ([""] + rest)[1..] == rest;
      assert s == sep + s[|sep|..];
    } else {
      JoinSplit(s[1..], sep);
      JoinCons(s[0], Split(s[1..], sep), sep);
      assert s == [s[0]] + s[1..];
    }
  }

  /** `s.replace(pat, rep) == rep.join(s.split(pat))`: replacing is splitting
      at the occurrences and joining with the replacement. */
  lemma {:induction false} ReplaceIsJoinOfSplit(s: string, pat: string, rep: string)
    requires |pat| > 0
    ensures ReplaceAll(s, pat, rep) == Join(Split(s, pat), rep)
    decreases |s|
  {
    if |s| == 0 {
    } else if StartsWith(s, pat) {
      var rest := Split(s[|pat|..], pat);
      assert Split(s, pat) == [""] + rest;
      assert ([""] + rest)[1..] == rest;
      assert Join([""] + rest, rep) == "" + rep + Join(rest, rep);
      ReplaceIsJoinOfSplit(s[|pat|..], pat, rep);
      assert ReplaceAll(s, pat, rep) == rep + ReplaceAll(s[|pat|..], pat, rep);
    } else {
      var rest := Split(s[1..], pat);
      assert Split(s, pat) == [[s[0]] + rest[0]] + rest[1..];
      ReplaceIsJoinOfSplit(s[1..], pat, rep);
      JoinCons(s[0], rest, rep);
      assert ReplaceAll(s, pat, rep) == [s[0]] + ReplaceAll(s[1..], pat, rep);
    }
  }

  /** The first part of a split is a prefix of the text. */
  lemma {:induction false} SplitHeadIsPrefix(s: string, sep: string)
    requires |sep| > 0
    ensures StartsWith(s, Split(s, sep)[0])
    decreases |s|
  {
    if |s| > 0 && !StartsWith(s, sep) {
      var rest := Split(s[1..], sep);
      SplitHeadIsPrefix(s[1..], sep);
      assert s[..1 + |rest[0]|] == [s[0]] + s[1..][..|rest[0]|];
    }
  }

  /** No part of a split contains the separator: the parts are exactly the
      text between consecutive occurrences. */
  lemma {:induction false} SplitPartsAreFree(s: string, sep: string)
    requires |sep| > 0
    ensures forall k :: 0 <= k < |Split(s, sep)| ==> !Contains(Split(s, sep)[k], sep)
    decreases |s|
  {
    if |s| == 0 {
      assert !Contains("", sep);
    } else if StartsWith(s, sep) {
      SplitPartsAreFree(s[|sep|..], sep);
      assert !Contains("", sep);
    } else {
      var rest := Split(s[1..], sep);
      SplitPartsAreFree(s[1..], sep);
      SplitHeadIsPrefix(s[1..], sep);
      var head := [s[0]] + rest[0];
      assert StartsWith(s, head) by {
        assert s[..|head|] == [s[0]] + s[1..][..|rest[0]|];
      }
      assert head[1..] == rest[0];
      assert !Contains(head, sep);
    }
  }

  /** A text without an occurrence of `pat` is left as it is by the replacement. */
  lemma {:induction false} ReplaceAbsent(s: string, pat: string, rep: string)
    requires |pat| > 0 && !Contains(s, pat)
    ensures ReplaceAll(s, pat, rep) == s
    decreases |s|
  {
    if |s| > 0 {
      ReplaceAbsent(s[1..], pat, rep);
    }
  }

  /** A concatenation starts with its first piece. */
  lemma StartsWithConcat(a: string, b: string)
    ensures StartsWith(a + b, a)
  {
    assert (a + b)[..|a|] == a;
  }

  /** A concatenation contains its middle piece. */
  lemma ContainsInfix(a: string, b: string, c: string)
    ensures Contains(a + b + c, b)
  {
    var s := a + b + c;
    assert s[|a|..|a| + |b|] == b;
    ContainsAt(s, b, |a|);
  }

  /** A concatenation ends with its last piece. */
  lemma EndsWithConcat(a: string, b: string, c: string)
    ensures EndsWith(a + b + c, c)
  {
    assert (a + b + c)[|a + b + c| - |c|..] == c;
  }

  /** A text made of three pieces starts with the first and contains the
      second. */
  lemma ThreePieces(a: string, b: string, c: string)
    ensures StartsWith(a + b + c, a) && Contains(a + b + c, b)
  {
    assert a + b + c == a + (b + c);
    StartsWithConcat(a, b + c);
    ContainsInfix(a, b, c);
  }

  /** A text made of three pieces starts with the first two, and is no
      longer than the three together. */
  lemma PiecesInOrder(a: string, b: string, c: string)
    ensures StartsWith(a + b + c, a + b) && |a + b + c| == |a + b| + |c|
  {
    StartsWithConcat(a + b, c);
  }

  /** Prepending a character keeps every occurrence. */
  lemma ContainsCons(c: char, s: string, pat: string)
    requires Contains(s, pat)
    ensures Contains([c] + s, pat)
  {
    assert ([c] + s)[1..] == s;
  }

  /** When `pat` occurs in `s`, the replacement text occurs in the result. */
  lemma {:induction false} ReplaceIntroduces(s: string, pat: string, rep: string)
    requires |pat| > 0 && Contains(s, pat)
    ensures Contains(ReplaceAll(s, pat, rep), rep)
    decreases |s|
  {
    if StartsWith(s, pat) {
      var r := ReplaceAll(s, pat, rep);
      assert r[..|rep|] == rep;
    } else {
      ReplaceIntroduces(s[1..], pat, rep);
      ContainsCons(s[0], ReplaceAll(s[1..], pat, rep), rep);
    }
  }

  /** Python's `s.rfind(c)`: the last index holding `c`, or -1. */
  function RFind(s: string, c: char): (i: int)
    ensures -1 <= i < |s|
    ensures i >= 0 ==> s[i] == c
    ensures forall j :: i < j < |s| ==> s[j] != c
    decreases |s|
  {
    if |s| == 0 then -1
    else if s[|s| - 1] == c then |s| - 1
    else RFind(s[..|s| - 1], c)
  }
}

=== FILE: tinychess_test.dfy ===
/** The single-engine pipeline script (`src/tinychess_test.py`): fetch one
    revision with an optional source cache, build it with an optional binary
    cache, and start an SPRT match between two built engines. */
module TinyChessTest {
  import opened Strings
  import opened WorkingSpace
  import opened Steps
  import opened UciName

  const CmakeBuildSystem := "MinGW Makefiles"

  /** The module globals, for a process started in `cwd`. */
  function DefaultConfig(cwd: Path): (cfg: Config)
    ensures SourceCodeDir(cfg) == cwd + ["working", "sources"]
    ensures cfg.cloneUrl == "https://github.com/Bobingstern/TinyChess" && cfg.generator == "MinGW Makefiles"
  {
    Config(cwd + ["working"], GitCloneUrl, CmakeBuildSystem)
  }

  function MainCppOf(tree: Path): Path {
    tree + ["src", "main.cpp"]
  }

  // ---------------------------------------------------------------------------
  // fetch_source_code

  /** The steps of a fetch that completes, before the identity patch, given
      whether the revision directory and its `TinyChess/.git` existed. */
  function FetchPlan(cfg: Config, commit: string, noCache: bool, hadDir: bool, hadGit: bool): seq<Op> {
    [MkdirParents(SourceCodeDir(cfg))] + RevisionPlan(cfg, commit, noCache, hadDir, hadGit)
  }

  /** The steps after the sources root is made: `git pull` in a cached
      checkout, or reset and clone. */
  function RevisionPlan(cfg: Config, commit: string, noCache: bool, hadDir: bool, hadGit: bool): seq<Op> {
    var dir := RevisionDir(cfg, commit);
    if hadDir && !noCache then [RunCmd(Command("git pull", TreeOf(dir)))]
    else ResetOps(dir, hadDir, hadGit) + CloneOps(cfg, commit, dir)
  }

  /** Every step the revision fetch may take: its plan and, after a fresh
      fetch, the write of the patched `main.cpp`. */
  function RevisionSteps(cfg: Config, commit: string, noCache: bool, hadDir: bool, hadGit: bool): seq<Op> {
    RevisionPlan(cfg, commit, noCache, hadDir, hadGit)
    + (if hadDir && !noCache then [] else [WriteText(MainCppOf(TreeOf(RevisionDir(cfg, commit))))])
  }

  /** Reusing a cached tree deletes and creates nothing beyond the sources
      root, and issues `git pull` in the checkout and nothing else. */
  lemma CachedFetchOnlyPulls(cfg: Config, commit: string, hadGit: bool)
    ensures var plan := FetchPlan(cfg, commit, false, true, hadGit);
            && Commands(plan) == [Command("git pull", TreeOf(RevisionDir(cfg, commit)))]
            && forall i :: 0 <= i < |plan| ==> !plan[i].Rmtree? && !plan[i].Mkdir?
  {
    var plan := FetchPlan(cfg, commit, false, true, hadGit);
    var pull := RunCmd(Command("git pull", TreeOf(RevisionDir(cfg, commit))));
    assert plan == [MkdirParents(SourceCodeDir(cfg))] + [pull];
    CommandsAppend([MkdirParents(SourceCodeDir(cfg))], [pull]);
    CommandsOne(MkdirParents(SourceCodeDir(cfg)));
    CommandsOne(pull);
  }

  /** A fresh fetch issues exactly `git clone <url>` in the revision directory
      and then `git checkout <commit>` in the checkout, and only after every
      removal and creation of a directory. */
  lemma FreshFetchClonesThenChecksOut(cfg: Config, commit: string, noCache: bool, hadDir: bool, hadGit: bool)
    requires !(hadDir && !noCache)
    ensures var plan := FetchPlan(cfg, commit, noCache, hadDir, hadGit);
            var dir := RevisionDir(cfg, commit);
            && Commands(plan) == [Command("git clone " + cfg.cloneUrl, dir),
                                  Command("git checkout " + commit, TreeOf(dir))]
            && PreparesBeforeRunning(plan)
  {
    var dir := RevisionDir(cfg, commit);
    var prep := [MkdirParents(SourceCodeDir(cfg))] + ResetOps(dir, hadDir, hadGit);
    var clone := CloneOps(cfg, commit, dir);
    assert FetchPlan(cfg, commit, noCache, hadDir, hadGit) == prep + clone;
    assert Commands(prep) == [] by {
      ResetOpsShape(dir, hadDir, hadGit);
      CommandsOne(MkdirParents(SourceCodeDir(cfg)));
      CommandsAppend([MkdirParents(SourceCodeDir(cfg))], ResetOps(dir, hadDir, hadGit));
    }
    CloneOpsCommands(cfg, commit, dir);
    CommandsAppend(prep, clone);
    assert PreparesBeforeRunning(prep + clone) by {
      ResetOpsShape(dir, hadDir, hadGit);
      PrepareThenRun(prep, clone);
    }
  }

  /** A fresh fetch removes the revision directory exactly when it existed,
      its `TinyChess/.git` first when that existed too, and creates the
      directory afresh. */
  lemma FreshFetchPlanReplacesDir(cfg: Config, commit: string, noCache: bool, hadDir: bool, hadGit: bool)
    requires !(hadDir && !noCache)
    ensures var plan := FetchPlan(cfg, commit, noCache, hadDir, hadGit);
            var dir := RevisionDir(cfg, commit);
            && Mkdir(dir) in plan
            && (Rmtree(dir) in plan <==> hadDir)
            && (hadDir && hadGit ==> plan[1..3] == [Rmtree(GitDirOf(dir)), Rmtree(dir)])
  {
    var dir := RevisionDir(cfg, commit);
    var plan := FetchPlan(cfg, commit, noCache, hadDir, hadGit);
    var reset := ResetOps(dir, hadDir, hadGit);
    var clone := CloneOps(cfg, commit, dir);
    assert plan == [MkdirParents(SourceCodeDir(cfg))] + reset + clone;
    ResetOpsShape(dir, hadDir, hadGit);
    assert Mkdir(dir) == reset[|reset| - 1] == plan[|reset|];
    assert Rmtree(dir) !in clone && Rmtree(dir) != MkdirParents(SourceCodeDir(cfg));
    if hadDir && hadGit {
      assert plan[1..3] == reset[..2];
    }
  }

  /** The identity patch of a fresh checkout: read `main.cpp`, and write it
      back renamed when the guard finds the marker. It fails when there is no
      `main.cpp`, or when the file to be rewritten is read-only. */
  method PatchMainCpp(fs: FileSystem, mainCpp: Path, commit: string) returns (o: Outcome, renamed: bool)
    requires fs.Valid()
    modifies fs
    ensures fs.Valid() && fs.dirs == old(fs.dirs) && fs.readOnly == old(fs.readOnly)
    ensures o.Pass? <==> mainCpp in old(fs.files)
                         && (Contains(old(fs.files[mainCpp]), Marker) ==> mainCpp !in old(fs.readOnly))
    ensures o.Pass? ==> && (renamed <==> Contains(old(fs.files[mainCpp]), Marker))
                        && fs.files == (if renamed then old(fs.files)[mainCpp := PatchUciName(old(fs.files[mainCpp]), commit).value]
                                        else old(fs.files))
                        && fs.trace == old(fs.trace) + (if renamed then [WriteText(mainCpp)] else [])
    ensures o.Fail? ==> o.error.OsError? && fs.files == old(fs.files) && fs.trace == old(fs.trace)
  {
    renamed := false;
    var read := fs.ReadText(mainCpp);
    if read.Err? {
      return Fail(read.error), renamed;
    }
    var patched := PatchUciName(read.value, commit);
    o := Pass;
    if patched.Some? {
      o := fs.Write(mainCpp, patched.value);
      renamed := o.Pass?;
    }
  }

  /** The tree after the fresh branch has reset the revision directory,
      cloned and checked out, before the identity patch. */
  function CheckedOut(t: Tree, cfg: Config, commit: string, cloned: Effect, checkedOut: Effect): Tree {
    var dir := RevisionDir(cfg, commit);
    Cloned(t.Fresh(dir), dir, cloned, checkedOut)
  }

  /** The fresh branch completes: the reset succeeds, the clone leaves its
      checkout, the checkout leaves `main.cpp`, and `main.cpp` is writable
      when the guard finds the marker. */
  predicate FreshFetchSucceeds(t: Tree, cfg: Config, commit: string, cloned: Effect, checkedOut: Effect) {
    var dir := RevisionDir(cfg, commit);
    var c := CheckedOut(t, cfg, commit, cloned, checkedOut);
    var mainCpp := MainCppOf(TreeOf(dir));
    && CanReset(t, dir) && CloneSucceeds(t.Fresh(dir), dir, cloned)
    && mainCpp in c.files && (Contains(c.files[mainCpp], Marker) ==> mainCpp !in c.readOnly)
  }

  /** The tree a completed fresh fetch leaves: the checkout, with `main.cpp`
      renamed when the guard finds the marker. */
  function FreshFetched(t: Tree, cfg: Config, commit: string, cloned: Effect, checkedOut: Effect): Tree
    requires MainCppOf(TreeOf(RevisionDir(cfg, commit))) in CheckedOut(t, cfg, commit, cloned, checkedOut).files
  {
    var c := CheckedOut(t, cfg, commit, cloned, checkedOut);
    var mainCpp := MainCppOf(TreeOf(RevisionDir(cfg, commit)));
    match PatchUciName(c.files[mainCpp], commit)
    case None => c
    case Some(text) => c.Written(mainCpp, text)
  }

  /** A fresh fetch replaces the revision directory and nothing else: outside
      it the tree is as it was, and all that lies in it came from `git clone`
      and `git checkout`; no file of an earlier checkout survives. */
  lemma FreshFetchReplacesTree(t: Tree, cfg: Config, commit: string, cloned: Effect, checkedOut: Effect)
    requires t.Valid() && cloned.Valid() && checkedOut.Valid()
    requires FreshFetchSucceeds(t, cfg, commit, cloned, checkedOut)
    ensures var f := FreshFetched(t, cfg, commit, cloned, checkedOut);
            var dir := RevisionDir(cfg, commit);
            && f.Valid()
            && f.Outside(dir) == t.Outside(dir)
            && forall p :: p in f.Entries() && Under(p, dir) && p != dir ==>
                 p in cloned.made.Entries() || p in checkedOut.made.Entries()
  {
    var dir := RevisionDir(cfg, commit);
    var mainCpp := MainCppOf(TreeOf(dir));
    FreshEmpties(t, dir);
    ClonedInEmpty(t.Fresh(dir), dir, cloned, checkedOut);
    var c := CheckedOut(t, cfg, commit, cloned, checkedOut);
    assert Under(mainCpp, dir) && mainCpp != dir by {
      assert mainCpp[..|dir|] == dir;
    }
    var patched := PatchUciName(c.files[mainCpp], commit);
    if patched.Some? {
      WrittenInside(c, mainCpp, patched.value, dir);
    }
  }

  /** The `main.cpp` the identity patch reads is the one `git checkout` left,
      or else the one `git clone` left; the fetched tree holds it renamed
      exactly when it carries the unquoted marker. */
  lemma FreshFetchMainCpp(t: Tree, cfg: Config, commit: string, cloned: Effect, checkedOut: Effect)
    requires t.Valid() && FreshFetchSucceeds(t, cfg, commit, cloned, checkedOut)
    ensures var mainCpp := MainCppOf(TreeOf(RevisionDir(cfg, commit)));
            var text := CheckedOut(t, cfg, commit, cloned, checkedOut).files[mainCpp];
            && (mainCpp in checkedOut.made.files ==> text == checkedOut.made.files[mainCpp])
            && (mainCpp !in checkedOut.made.files ==> mainCpp in cloned.made.files && text == cloned.made.files[mainCpp])
            && FreshFetched(t, cfg, commit, cloned, checkedOut).files[mainCpp]
               == if Contains(text, Marker) then PatchUciName(text, commit).value else text
  {
    var dir := RevisionDir(cfg, commit);
    var tree := TreeOf(dir);
    var mainCpp := MainCppOf(tree);
    var f := t.Fresh(dir);
    var s := f.AfterRun(dir, cloned);
    AfterRunBelow(f, dir, cloned);
    AfterRunBelow(s, tree, checkedOut);
    assert Under(mainCpp, tree) && mainCpp != tree by {
      assert mainCpp[..|tree|] == tree;
    }
    assert Under(mainCpp, dir) && mainCpp != dir by {
      assert mainCpp[..|dir|] == dir;
    }
    assert mainCpp !in f.files;
  }

  /** The no-cache branch of `fetch_source_code`, after the sources root
      exists: reset the revision directory, clone, check out, patch. */
  method FreshFetch(fs: FileSystem, cfg: Config, commit: string, cloned: Effect, checkedOut: Effect)
    returns (r: Result<Path>, renamed: bool)
    requires fs.Valid() && cloned.Valid() && checkedOut.Valid()
    modifies fs
    ensures fs.Valid()
    ensures r.Ok? <==> FreshFetchSucceeds(old(fs.View()), cfg, commit, cloned, checkedOut)
    ensures r.Ok? ==> && r.value == TreeOf(RevisionDir(cfg, commit))
                      && fs.View() == FreshFetched(old(fs.View()), cfg, commit, cloned, checkedOut)
                      && (renamed <==> Contains(CheckedOut(old(fs.View()), cfg, commit, cloned, checkedOut)
                                                  .files[MainCppOf(r.value)], Marker))
                      && fs.trace == old(fs.trace)
                                     + ResetOps(RevisionDir(cfg, commit), old(fs.Exists(RevisionDir(cfg, commit))),
                                                old(fs.Exists(GitDirOf(RevisionDir(cfg, commit)))))
                                     + CloneOps(cfg, commit, RevisionDir(cfg, commit))
                                     + (if renamed then [WriteText(MainCppOf(r.value))] else [])
    ensures r.Err? ==> && r.error.OsError?
                       && fs.View().Outside(RevisionDir(cfg, commit)) == old(fs.View()).Outside(RevisionDir(cfg, commit))
                       && Interrupted(old(fs.trace), fs.trace,
                                      ResetOps(RevisionDir(cfg, commit), old(fs.Exists(RevisionDir(cfg, commit))),
                                               old(fs.Exists(GitDirOf(RevisionDir(cfg, commit)))))
                                      + CloneOps(cfg, commit, RevisionDir(cfg, commit))
                                      + [WriteText(MainCppOf(TreeOf(RevisionDir(cfg, commit))))])
  {
    ghost var t, start := fs.View(), fs.trace;
    renamed := false;
    var dir := RevisionDir(cfg, commit);
    var tree := TreeOf(dir);
    ghost var reset := ResetOps(dir, t.Exists(dir), t.Exists(GitDirOf(dir)));
    ghost var clone, write := CloneOps(cfg, commit, dir), [WriteText(MainCppOf(tree))];
    var o := ResetDir(fs, dir);
    if o.Fail? {
      assert Interrupted(start, fs.trace, reset + clone + write) by {
        InterruptedSooner(start, fs.trace, reset, clone);
        InterruptedSooner(start, fs.trace, reset + clone, write);
      }
      return Err(o.error), renamed;
    }
    FreshEmpties(t, dir);
    ClonedInEmpty(t.Fresh(dir), dir, cloned, checkedOut);
    o := CloneRevision(fs, cfg, commit, dir, cloned, checkedOut);
    if o.Fail? {
      assert Interrupted(start, fs.trace, reset + clone + write) by {
        InterruptedLater(start, reset, fs.trace, clone);
        InterruptedSooner(start, fs.trace, reset + clone, write);
      }
      return Err(o.error), renamed;
    }
    assert fs.trace == start + (reset + clone) by {
      StepsAssociate(start, reset, clone);
    }
    o, renamed := PatchMainCpp(fs, MainCppOf(tree), commit);
    if o.Fail? {
      assert Interrupted(start, fs.trace, reset + clone + write) by {
        InterruptedAfter(start, reset + clone, write);
      }
      return Err(o.error), renamed;
    }
    r := Ok(tree);
  }

  /** The cached branch of `fetch_source_code`: update the existing checkout
      with `git pull`; `pulled` is what the pull does. */
  method PullCached(fs: FileSystem, cfg: Config, commit: string, pulled: Effect) returns (r: Result<Path>)
    requires fs.Valid() && pulled.Valid()
    modifies fs
    ensures fs.Valid()
    ensures r.Ok? <==> TreeOf(RevisionDir(cfg, commit)) in old(fs.dirs)
    ensures r.Ok? ==> && r.value == TreeOf(RevisionDir(cfg, commit))
                      && fs.trace == old(fs.trace) + [RunCmd(Command("git pull", r.value))]
                      && fs.View() == old(fs.View()).AfterRun(r.value, pulled)
                      && fs.View().Outside(r.value) == old(fs.View()).Outside(r.value)
    ensures r.Err? ==> r.error.OsError? && fs.View() == old(fs.View()) && fs.trace == old(fs.trace)
  {
    var tree := TreeOf(RevisionDir(cfg, commit));
    var o := fs.Run(Command("git pull", tree), pulled);
    if o.Fail? {
      return Err(o.error);
    }
    r := Ok(tree);
  }

  /** The source cache applies: it is in use and the revision directory
      exists, so the fetch is a `git pull`. */
  predicate UsesCache(t: Tree, cfg: Config, commit: string, noCache: bool) {
    !noCache && t.Exists(RevisionDir(cfg, commit))
  }

  /** Fetching the revision, once the sources root exists, completes: the
      checkout to pull in is there, or the fresh fetch completes. */
  predicate RevisionFetchSucceeds(t: Tree, cfg: Config, commit: string, noCache: bool,
                                  cloned: Effect, checkedOut: Effect)
  {
    if UsesCache(t, cfg, commit, noCache) then TreeOf(RevisionDir(cfg, commit)) in t.dirs
    else FreshFetchSucceeds(t, cfg, commit, cloned, checkedOut)
  }

  /** The tree a completed fetch of the revision leaves. */
  function RevisionFetched(t: Tree, cfg: Config, commit: string, noCache: bool,
                           pulled: Effect, cloned: Effect, checkedOut: Effect): Tree
    requires RevisionFetchSucceeds(t, cfg, commit, noCache, cloned, checkedOut)
  {
    if UsesCache(t, cfg, commit, noCache) then t.AfterRun(TreeOf(RevisionDir(cfg, commit)), pulled)
    else FreshFetched(t, cfg, commit, cloned, checkedOut)
  }

  /** Whichever branch it takes, a completed fetch changes nothing outside
      the revision directory. */
  lemma FetchStaysInRevisionDir(t: Tree, cfg: Config, commit: string, noCache: bool,
                                pulled: Effect, cloned: Effect, checkedOut: Effect)
    requires t.Valid() && pulled.Valid() && cloned.Valid() && checkedOut.Valid()
    requires RevisionFetchSucceeds(t, cfg, commit, noCache, cloned, checkedOut)
    ensures var f, dir := RevisionFetched(t, cfg, commit, noCache, pulled, cloned, checkedOut), RevisionDir(cfg, commit);
            && f.Valid()
            && f.Outside(dir) == t.Outside(dir)
  {
    var dir := RevisionDir(cfg, commit);
    if UsesCache(t, cfg, commit, noCache) {
      AfterRunValid(t, TreeOf(dir), pulled);
      AfterRunOutside(t, TreeOf(dir), pulled);
      OutsideWiden(t.AfterRun(TreeOf(dir), pulled), t, TreeOf(dir), dir);
    } else {
      FreshFetchReplacesTree(t, cfg, commit, cloned, checkedOut);
    }
  }

  /** The branch of `fetch_source_code` after the sources root is made. */
  method FetchRevision(fs: FileSystem, cfg: Config, commit: string, noCache: bool,
                       pulled: Effect, cloned: Effect, checkedOut: Effect)
    returns (r: Result<Path>, renamed: bool)
    requires fs.Valid() && pulled.Valid() && cloned.Valid() && checkedOut.Valid()
    modifies fs
    ensures fs.Valid()
    ensures r.Ok? <==> RevisionFetchSucceeds(old(fs.View()), cfg, commit, noCache, cloned, checkedOut)
    ensures r.Ok? ==> && r.value == TreeOf(RevisionDir(cfg, commit))
                      && fs.View() == RevisionFetched(old(fs.View()), cfg, commit, noCache, pulled, cloned, checkedOut)
    ensures r.Ok? ==> fs.trace == old(fs.trace)
                                  + RevisionPlan(cfg, commit, noCache, old(fs.Exists(RevisionDir(cfg, commit))),
                                                 old(fs.Exists(GitDirOf(RevisionDir(cfg, commit)))))
                                  + (if renamed then [WriteText(MainCppOf(r.value))] else [])
    ensures r.Ok? ==> (renamed <==> && !UsesCache(old(fs.View()), cfg, commit, noCache)
                                    && Contains(CheckedOut(old(fs.View()), cfg, commit, cloned, checkedOut)
                                                  .files[MainCppOf(r.value)], Marker))
    ensures r.Err? ==> && r.error.OsError?
                       && fs.View().Outside(RevisionDir(cfg, commit)) == old(fs.View()).Outside(RevisionDir(cfg, commit))
                       && Interrupted(old(fs.trace), fs.trace,
                                      RevisionSteps(cfg, commit, noCache, old(fs.Exists(RevisionDir(cfg, commit))),
                                                    old(fs.Exists(GitDirOf(RevisionDir(cfg, commit))))))
  {
    renamed := false;
    var dir := RevisionDir(cfg, commit);
    ghost var t, start := fs.View(), fs.trace;
    if fs.Exists(dir) && !noCache {
      assert UsesCache(t, cfg, commit, noCache);
      r := PullCached(fs, cfg, commit, pulled);
      if r.Err? {
        InterruptedAtStart(start, RevisionSteps(cfg, commit, noCache, true, t.Exists(GitDirOf(dir))));
      }
      return;
    }
    assert !UsesCache(t, cfg, commit, noCache);
    ghost var reset, clone := ResetOps(dir, fs.Exists(dir), fs.Exists(GitDirOf(dir))), CloneOps(cfg, commit, dir);
    r, renamed := FreshFetch(fs, cfg, commit, cloned, checkedOut);
    StepsAssociate(start, reset, clone);
  }

  /** `fetch_source_code(commit, no_cache)`: create the sources directory,
      then pull in the cached checkout or fetch the revision afresh. The
      effects are what `git pull`, `git clone` and `git checkout` do;
      `renamed` says whether the identity patch was written (otherwise the
      warning is logged). */
  method FetchSourceCode(fs: FileSystem, cfg: Config, commit: string, noCache: bool := true,
                         pulled: Effect, cloned: Effect, checkedOut: Effect)
    returns (r: Result<Path>, renamed: bool)
    requires fs.Valid() && pulled.Valid() && cloned.Valid() && checkedOut.Valid()
    modifies fs
    ensures fs.Valid()
    ensures r.Ok? <==> && SourcesCreatable(old(fs.View()), cfg)
                       && RevisionFetchSucceeds(WithSources(old(fs.View()), cfg), cfg, commit, noCache, cloned, checkedOut)
    ensures r.Ok? ==> && r.value == TreeOf(RevisionDir(cfg, commit))
                      && fs.View() == RevisionFetched(WithSources(old(fs.View()), cfg), cfg, commit, noCache,
                                                      pulled, cloned, checkedOut)
    ensures r.Ok? ==> fs.trace == old(fs.trace)
                                  + FetchPlan(cfg, commit, noCache, old(fs.Exists(RevisionDir(cfg, commit))),
                                              old(fs.Exists(GitDirOf(RevisionDir(cfg, commit)))))
                                  + (if renamed then [WriteText(MainCppOf(r.value))] else [])
    ensures r.Ok? ==> (renamed <==> && !UsesCache(WithSources(old(fs.View()), cfg), cfg, commit, noCache)
                                    && Contains(CheckedOut(WithSources(old(fs.View()), cfg), cfg, commit, cloned,
                                                           checkedOut).files[MainCppOf(r.value)], Marker))
    ensures r.Err? ==> && r.error.OsError?
                       && Interrupted(old(fs.trace), fs.trace,
                                      [MkdirParents(SourceCodeDir(cfg))]
                                      + RevisionSteps(cfg, commit, noCache, old(fs.Exists(RevisionDir(cfg, commit))),
                                                      old(fs.Exists(GitDirOf(RevisionDir(cfg, commit))))))
    ensures r.Err? ==> || fs.View() == old(fs.View())
                       || fs.View().Outside(RevisionDir(cfg, commit))
                          == WithSources(old(fs.View()), cfg).Outside(RevisionDir(cfg, commit))
  {
    renamed := false;
    var sources := SourceCodeDir(cfg);
    var dir := RevisionDir(cfg, commit);
    ghost var t := fs.View();
    ghost var hadDir, hadGit := fs.Exists(dir), fs.Exists(GitDirOf(dir));
    var o := fs.MakeDirs(sources);
    if o.Fail? {
      InterruptedAtStart(old(fs.trace), [MkdirParents(sources)] + RevisionSteps(cfg, commit, noCache, hadDir, hadGit));
      return Err(o.error), renamed;
    }
    assert fs.View() == WithSources(t, cfg);
    // Creating the sources directory and its ancestors creates nothing of
    // the revision directory.
    LongerNotAncestor(sources, dir);
    LongerNotAncestor(sources, GitDirOf(dir));
    assert fs.Exists(dir) == hadDir && fs.Exists(GitDirOf(dir)) == hadGit;
    r, renamed := FetchRevision(fs, cfg, commit, noCache, pulled, cloned, checkedOut);
    if r.Err? {
      InterruptedLater(old(fs.trace), [MkdirParents(sources)], fs.trace, RevisionSteps(cfg, commit, noCache, hadDir, hadGit));
      return;
    }
    StepsAssociate(old(fs.trace), [MkdirParents(sources)], RevisionPlan(cfg, commit, noCache, hadDir, hadGit));
  }

  // ---------------------------------------------------------------------------
  // compile_cmake_project

  /** The generation command, with the generator and the build type. */
  function GenerateLine(generator: string, buildType: string): (line: string)
    ensures StartsWith(line, "cmake .. -G \"" + generator + "\"")
    ensures EndsWith(line, " -D CMAKE_BUILD_TYPE=" + buildType)
    ensures |line| == |"cmake .. -G \"" + generator + "\""| + |" -D CMAKE_BUILD_TYPE=" + buildType|
  {
    var head := "cmake .. -G \"" + generator + "\"";
    var tail := " -D CMAKE_BUILD_TYPE=" + buildType;
    assert (head + tail)[..|head|] == head;
    assert (head + tail)[|head + tail| - |tail|..] == tail;
    head + tail
  }

  /** A build directory whose binary may be reused: the cache is on, and
      `main.exe` or `main` is in `build`. */
  predicate CacheHit(present: set<Path>, build: Path, noCache: bool) {
    !noCache && build in present && Probe(present, build).Some?
  }

  /** `compile_cmake_project(path, build_type, no_cache)`. The two effects are
      what the generation and the build command do. */
  method CompileCmakeProject(fs: FileSystem, cfg: Config, path: Path,
                             buildType: string := "Debug", noCache: bool := true,
                             generated: Effect, built: Effect)
    returns (r: Result<Path>)
    requires fs.Valid() && generated.Valid() && built.Valid()
    modifies fs
    ensures fs.Valid()
    ensures CacheHit(old(fs.Entries()), BuildDirOf(path), noCache) ==>
              r == Ok(Probe(old(fs.Entries()), BuildDirOf(path)).value) && unchanged(fs)
    ensures !CacheHit(old(fs.Entries()), BuildDirOf(path), noCache) ==>
              && ((r.Ok? || r == Err(BinaryNotFound)) <==> CanRebuild(old(fs.View()), BuildDirOf(path)))
              && ((r.Ok? || r == Err(BinaryNotFound)) ==>
                    && fs.View() == Rebuilt(old(fs.View()), BuildDirOf(path), generated, built)
                    && fs.trace == old(fs.trace) + RebuildOps(BuildDirOf(path), GenerateLine(cfg.generator, buildType),
                                                              old(fs.Exists(BuildDirOf(path)))))
    ensures r.Ok? ==> fs.Exists(r.value) && Probe(fs.Entries(), BuildDirOf(path)) == Some(r.value)
    ensures r == Err(BinaryNotFound) ==> Probe(fs.Entries(), BuildDirOf(path)) == None
    ensures r.Err? && r.error.OsError? ==>
              && (fs.trace == old(fs.trace) || fs.trace == old(fs.trace) + [Rmtree(BuildDirOf(path))])
              && fs.View().Outside(BuildDirOf(path)) == old(fs.View()).Outside(BuildDirOf(path))
  {
    ghost var t := fs.View();
    var build := BuildDirOf(path);
    var generate := GenerateLine(cfg.generator, buildType);
    if fs.Exists(build) {
      if !noCache {
        var cached := Probe(fs.Entries(), build);
        if cached.Some? {
          return Ok(cached.value);
        }
      }
      var o := fs.RemoveTree(build);
      if o.Fail? {
        return Err(o.error);
      }
      FreshAfterRemoval(t, build);
      r := RebuildAndProbe(fs, build, generate, generated, built);
      RebuildOpsAfterRemoval(build, generate);
    } else {
      r := RebuildAndProbe(fs, build, generate, generated, built);
    }
  }

  // ---------------------------------------------------------------------------
  // run_sprt

  const OpeningsClause := " -openings file=../Silver_opening_suite.pgn format=pgn "

  /** The two engine entries, each addressed by the stem of its binary. */
  function EngineEntries(engine1: Path, engine2: Path): string {
    "cutechess-cli -engine cmd=" + Stem(engine1) + " -engine cmd=" + Stem(engine2) + " -each "
  }

  /** The shared engine settings, the SPRT parameters (a 300 ms time margin,
      H0 of 0 Elo, H1 of 5 Elo, both error rates 0.05), the game count and the
      concurrency. */
  function SprtSettings(timeControl: string, games: string, concurrency: string): string {
    "proto=uci tc=" + timeControl
    + " timemargin=300 -sprt elo0=0 elo1=5 alpha=0.05 beta=0.05 -games " + games
    + " -concurrency " + concurrency
  }

  /** The cutechess-cli invocation of `run_sprt`: with the book on, the
      openings clause closes the command. */
  function SprtCommand(engine1: Path, engine2: Path, timeControl: string, games: string,
                       concurrency: string, noBook: bool): (cmd: string)
    ensures !noBook ==> EndsWith(cmd, OpeningsClause)
  {
    var entries, settings := EngineEntries(engine1, engine2), SprtSettings(timeControl, games, concurrency);
    var book := if noBook then "" else OpeningsClause;
    EndsWithConcat(entries, settings, book);
    entries + settings + book
  }

  /** With the book on, the command is the bookless one followed by the
      openings clause. */
  lemma SprtBookAppends(engine1: Path, engine2: Path, timeControl: string, games: string, concurrency: string)
    ensures SprtCommand(engine1, engine2, timeControl, games, concurrency, false)
            == SprtCommand(engine1, engine2, timeControl, games, concurrency, true) + OpeningsClause
  {
    var base := EngineEntries(engine1, engine2) + SprtSettings(timeControl, games, concurrency);
    assert base + "" == base;
  }

  /** Whatever the book setting, the command starts with both engines
      addressed by stem, followed at once by the shared engine settings, the
      fixed SPRT parameters, the game count and the concurrency; nothing but
      the openings clause, when the book is on, comes after them. */
  lemma SprtCommandCarriesSettings(engine1: Path, engine2: Path, timeControl: string, games: string,
                                   concurrency: string, noBook: bool)
    ensures var cmd := SprtCommand(engine1, engine2, timeControl, games, concurrency, noBook);
            StartsWith(cmd, "cutechess-cli -engine cmd=" + Stem(engine1) + " -engine cmd=" + Stem(engine2) + " -each ")
    ensures var cmd := SprtCommand(engine1, engine2, timeControl, games, concurrency, noBook);
            Contains(cmd, "proto=uci tc=" + timeControl
                          + " timemargin=300 -sprt elo0=0 elo1=5 alpha=0.05 beta=0.05 -games " + games
                          + " -concurrency " + concurrency)
    ensures var cmd := SprtCommand(engine1, engine2, timeControl, games, concurrency, noBook);
            StartsWith(cmd, "cutechess-cli -engine cmd=" + Stem(engine1) + " -engine cmd=" + Stem(engine2) + " -each "
                            + ("proto=uci tc=" + timeControl
                               + " timemargin=300 -sprt elo0=0 elo1=5 alpha=0.05 beta=0.05 -games " + games
                               + " -concurrency " + concurrency))
    ensures var cmd := SprtCommand(engine1, engine2, timeControl, games, concurrency, noBook);
            |cmd| == |"cutechess-cli -engine cmd=" + Stem(engine1) + " -engine cmd=" + Stem(engine2) + " -each "
                      + ("proto=uci tc=" + timeControl
                         + " timemargin=300 -sprt elo0=0 elo1=5 alpha=0.05 beta=0.05 -games " + games
                         + " -concurrency " + concurrency)|
                     + (if noBook then 0 else |OpeningsClause|)
  {
    PiecesInOrder(EngineEntries(engine1, engine2), SprtSettings(timeControl, games, concurrency),
                  if noBook then "" else OpeningsClause);
    ThreePieces(EngineEntries(engine1, engine2), SprtSettings(timeControl, games, concurrency),
                if noBook then "" else OpeningsClause);
  }

  /** The command ends with the openings clause exactly when the book is on
      (for a concurrency that does not itself end in a blank). */
  lemma SprtCommandBookClause(engine1: Path, engine2: Path, timeControl: string, games: string,
                              concurrency: string, noBook: bool)
    requires concurrency == [] || concurrency[|concurrency| - 1] != ' '
    ensures EndsWith(SprtCommand(engine1, engine2, timeControl, games, concurrency, noBook), OpeningsClause)
            <==> !noBook
  {
    var base := EngineEntries(engine1, engine2) + SprtSettings(timeControl, games, concurrency);
    var cmd := SprtCommand(engine1, engine2, timeControl, games, concurrency, noBook);
    if noBook {
      assert cmd == base;
      var n := |OpeningsClause|;
      if |cmd| >= n {
        var tail := cmd[|cmd| - n..];
        if concurrency == [] {
          assert cmd[|cmd| - 2] == 'y';
          assert tail[n - 2] == cmd[|cmd| - 2];
          assert OpeningsClause[n - 2] == 'n';
        } else {
          assert cmd[|cmd| - 1] == concurrency[|concurrency| - 1];
          assert tail[n - 1] == cmd[|cmd| - 1];
        }
      }
    } else {
      assert cmd == base + OpeningsClause;
      assert cmd[|cmd| - |OpeningsClause|..] == OpeningsClause;
    }
  }

  /** With both binaries called `main.exe` or `main` in one directory, both
      engines are addressed as `cmd=main`. */
  lemma SprtAddressesByStem(dir: Path)
    ensures Stem(dir + ["main.exe"]) == "main" && Stem(dir + ["main"]) == "main"
  {
    var exe := "main.exe";
    assert RFind(exe, '.') == 4 by {
      assert exe[4] == '.';
      assert exe[5..] == "exe";
      assert RFind(exe[..7], '.') == RFind(exe[..7][..6], '.');
      assert exe[..7][..6] == exe[..6];
      assert exe[..6][..5] == exe[..5];
    }
    assert Name(dir + ["main.exe"]) == exe;
    var plain := "main";
    assert forall j :: 0 <= j < |plain| ==> plain[j] != '.';
    assert RFind(plain, '.') == -1;
  }

  /** `run_sprt`: the binaries must share their directory (the assertion),
      which becomes the working directory of the one cutechess-cli command.
      `played` is what the match leaves behind. */
  method RunSprt(fs: FileSystem, engine1: Path, engine2: Path, timeControl: string, games: string,
                 concurrency: string, noBook: bool := false, played: Effect)
    returns (o: Outcome)
    requires fs.Valid() && played.Valid()
    modifies fs
    ensures fs.Valid()
    ensures Parent(engine1) != Parent(engine2) ==> o == Fail(ParentsDiffer) && unchanged(fs)
    ensures o.Pass? <==> Parent(engine1) == Parent(engine2) && Parent(engine1) in old(fs.dirs)
    ensures o.Pass? ==> && fs.trace == old(fs.trace) + [RunCmd(Command(SprtCommand(engine1, engine2, timeControl,
                                                                                    games, concurrency, noBook),
                                                                        Parent(engine1)))]
                        && fs.View() == old(fs.View()).AfterRun(Parent(engine1), played)
    ensures o.Fail? ==> fs.View() == old(fs.View()) && fs.trace == old(fs.trace)
  {
    if Parent(engine1) != Parent(engine2) {
      return Fail(ParentsDiffer);
    }
    var cwd := Parent(engine1);
    o := fs.Run(Command(SprtCommand(engine1, engine2, timeControl, games, concurrency, noBook), cwd), played);
  }
}

=== FILE: tinychesstest.dfy ===
/** The two-engine pipeline script (`src/tinychesstest.py`): fetch both
    revisions afresh, always, and build a checkout with no binary cache. */
module TinyChessTestPair {
  import opened Strings
  import opened WorkingSpace
  import opened Steps

  const CmakeBuildSystem := "Ninja"

  /** The module globals, for a process started in `cwd`. */
  function DefaultConfig(cwd: Path): (cfg: Config)
    ensures SourceCodeDir(cfg) == cwd + ["working", "sources"]
    ensures cfg.cloneUrl == "https://github.com/Bobingstern/TinyChess" && cfg.generator == "Ninja"
  {
    Config(cwd + ["working"], GitCloneUrl, CmakeBuildSystem)
  }

  // ---------------------------------------------------------------------------
  // fetch_source_code

  /** The steps of a fetch of both revisions that completes, given whether
      each revision directory and its `TinyChess/.git` existed when its turn
      in the preparation loop came. */
  function FetchPlan(cfg: Config, engine1: string, engine2: string,
                     hadDir1: bool, hadGit1: bool, hadDir2: bool, hadGit2: bool): seq<Op>
  {
    [MkdirParents(SourceCodeDir(cfg))] + RevisionsPlan(cfg, engine1, engine2, hadDir1, hadGit1, hadDir2, hadGit2)
  }

  /** The steps that follow the creation of the sources root: both
      preparation passes, then both clones. */
  function RevisionsPlan(cfg: Config, engine1: string, engine2: string,
                         hadDir1: bool, hadGit1: bool, hadDir2: bool, hadGit2: bool): seq<Op>
  {
    var dir1, dir2 := RevisionDir(cfg, engine1), RevisionDir(cfg, engine2);
    (ResetOps(dir1, hadDir1, hadGit1) + ResetOps(dir2, hadDir2, hadGit2))
    + (CloneOps(cfg, engine1, dir1) + CloneOps(cfg, engine2, dir2))
  }

  /** The issued commands are clone and checkout for engine 1, then clone
      and checkout for engine 2, and both directories are prepared before
      any of them runs. */
  lemma FetchPlanOrder(cfg: Config, engine1: string, engine2: string,
                       hadDir1: bool, hadGit1: bool, hadDir2: bool, hadGit2: bool)
    ensures var plan := FetchPlan(cfg, engine1, engine2, hadDir1, hadGit1, hadDir2, hadGit2);
            var dir1, dir2 := RevisionDir(cfg, engine1), RevisionDir(cfg, engine2);
            && Commands(plan) == [Command("git clone " + cfg.cloneUrl, dir1),
                                  Command("git checkout " + engine1, TreeOf(dir1)),
                                  Command("git clone " + cfg.cloneUrl, dir2),
                                  Command("git checkout " + engine2, TreeOf(dir2))]
            && PreparesBeforeRunning(plan)
  {
    var dir1, dir2 := RevisionDir(cfg, engine1), RevisionDir(cfg, engine2);
    var head := [MkdirParents(SourceCodeDir(cfg))];
    var reset1, reset2 := ResetOps(dir1, hadDir1, hadGit1), ResetOps(dir2, hadDir2, hadGit2);
    var clone1, clone2 := CloneOps(cfg, engine1, dir1), CloneOps(cfg, engine2, dir2);
    var prep := head + reset1 + reset2;
    var runs := clone1 + clone2;
    assert FetchPlan(cfg, engine1, engine2, hadDir1, hadGit1, hadDir2, hadGit2) == prep + runs;
    assert Commands(prep) == [] by {
      ResetOpsShape(dir1, hadDir1, hadGit1);
      ResetOpsShape(dir2, hadDir2, hadGit2);
      CommandsOne(head[0]);
      CommandsAppend(head, reset1);
      CommandsAppend(head + reset1, reset2);
    }
    assert Commands(runs) == Commands(clone1) + Commands(clone2) by {
      CommandsAppend(clone1, clone2);
    }
    CloneOpsCommands(cfg, engine1, dir1);
    CloneOpsCommands(cfg, engine2, dir2);
    CommandsAppend(prep, runs);
    assert PreparesBeforeRunning(prep + runs) by {
      ResetOpsShape(dir1, hadDir1, hadGit1);
      ResetOpsShape(dir2, hadDir2, hadGit2);
      PrepareThenRun(prep, runs);
    }
  }

  /** Each revision directory is created afresh, engine 1's first. */
  lemma FetchPlanCreatesBoth(cfg: Config, engine1: string, engine2: string,
                             hadDir1: bool, hadGit1: bool, hadDir2: bool, hadGit2: bool)
    ensures var plan := FetchPlan(cfg, engine1, engine2, hadDir1, hadGit1, hadDir2, hadGit2);
            exists i, j :: 0 <= i < j < |plan| && plan[i] == Mkdir(RevisionDir(cfg, engine1))
                                               && plan[j] == Mkdir(RevisionDir(cfg, engine2))
  {
    var dir1, dir2 := RevisionDir(cfg, engine1), RevisionDir(cfg, engine2);
    var plan := FetchPlan(cfg, engine1, engine2, hadDir1, hadGit1, hadDir2, hadGit2);
    var head := [MkdirParents(SourceCodeDir(cfg))];
    var reset1, reset2 := ResetOps(dir1, hadDir1, hadGit1), ResetOps(dir2, hadDir2, hadGit2);
    ResetOpsShape(dir1, hadDir1, hadGit1);
    ResetOpsShape(dir2, hadDir2, hadGit2);
    var i, j := |head + reset1| - 1, |head + reset1 + reset2| - 1;
    assert plan[i] == reset1[|reset1| - 1];
    assert plan[j] == reset2[|reset2| - 1];
  }

  /** Both revision directories lie below the sources root. */
  lemma SourcesHoldRevisions(cfg: Config, engine1: string, engine2: string)
    ensures Under(RevisionDir(cfg, engine1), SourceCodeDir(cfg)) && Under(RevisionDir(cfg, engine2), SourceCodeDir(cfg))
  {
    var sources := SourceCodeDir(cfg);
    assert RevisionDir(cfg, engine1)[..|sources|] == sources && RevisionDir(cfg, engine2)[..|sources|] == sources;
  }

  /** The tree after the preparation loop: both revision directories
      replaced by empty ones, engine 1's first. */
  function Prepared(t: Tree, cfg: Config, engine1: string, engine2: string): Tree {
    t.Fresh(RevisionDir(cfg, engine1)).Fresh(RevisionDir(cfg, engine2))
  }

  /** Both passes of the preparation loop succeed. */
  predicate CanPrepare(t: Tree, cfg: Config, engine1: string, engine2: string) {
    CanReset(t, RevisionDir(cfg, engine1)) && CanReset(t.Fresh(RevisionDir(cfg, engine1)), RevisionDir(cfg, engine2))
  }

  /** Once engine 1's directory is reset, engine 2's turn finds its directory
      exactly when the revisions are equal or it existed, and its `.git`
      exactly when the revisions differ and it existed. */
  lemma SecondTurnFinds(t: Tree, cfg: Config, engine1: string, engine2: string)
    requires t.Valid() && CanReset(t, RevisionDir(cfg, engine1))
    ensures var dir1, dir2 := RevisionDir(cfg, engine1), RevisionDir(cfg, engine2);
            && t.Fresh(dir1).Exists(dir2) == (engine1 == engine2 || t.Exists(dir2))
            && t.Fresh(dir1).Exists(GitDirOf(dir2)) == (engine1 != engine2 && t.Exists(GitDirOf(dir2)))
  {
    var dir1, dir2 := RevisionDir(cfg, engine1), RevisionDir(cfg, engine2);
    FreshEmpties(t, dir1);
    if engine1 != engine2 {
      RevisionDirsApart(cfg, engine1, engine2);
    }
    GitDirUnder(dir2);
  }

  /** After the preparation loop both revision directories are empty, the
      old trees in them are gone, and nothing outside the sources root has
      changed. With equal revisions the second pass finds the directory the
      first pass made, and no `.git` in it. */
  lemma PreparedEmpties(t: Tree, cfg: Config, engine1: string, engine2: string)
    requires t.Valid() && CanPrepare(t, cfg, engine1, engine2)
    ensures var p, dir1, dir2 := Prepared(t, cfg, engine1, engine2), RevisionDir(cfg, engine1), RevisionDir(cfg, engine2);
            && p.Valid()
            && Within(p.Entries(), dir1) == {dir1} && Within(p.Entries(), dir2) == {dir2}
            && p.Outside(SourceCodeDir(cfg)) == t.Outside(SourceCodeDir(cfg))
    ensures var dir1, dir2 := RevisionDir(cfg, engine1), RevisionDir(cfg, engine2);
            && t.Fresh(dir1).Exists(dir2) == (engine1 == engine2 || t.Exists(dir2))
            && t.Fresh(dir1).Exists(GitDirOf(dir2)) == (engine1 != engine2 && t.Exists(GitDirOf(dir2)))
  {
    var dir1, dir2 := RevisionDir(cfg, engine1), RevisionDir(cfg, engine2);
    var sources := SourceCodeDir(cfg);
    var f := t.Fresh(dir1);
    FreshEmpties(t, dir1);
    FreshEmpties(f, dir2);
    if engine1 != engine2 {
      RevisionDirsApart(cfg, engine1, engine2);
    }
    assert Under(dir1, sources) && Under(dir2, sources) by {
      assert dir1[..|sources|] == sources && dir2[..|sources|] == sources;
    }
    OutsideWiden(f, t, dir1, sources);
    OutsideWiden(f.Fresh(dir2), f, dir2, sources);
    GitDirUnder(dir2);
  }

  /** The preparation loop of `fetch_source_code`: for each of the two
      revisions in turn, replace its directory by a fresh empty one. */
  method PrepareRevisionDirs(fs: FileSystem, cfg: Config, engine1: string, engine2: string)
    returns (o: Outcome)
    requires fs.Valid()
    modifies fs
    ensures fs.Valid()
    ensures o.Pass? <==> CanPrepare(old(fs.View()), cfg, engine1, engine2)
    ensures o.Pass? ==>
              var dir1, dir2 := RevisionDir(cfg, engine1), RevisionDir(cfg, engine2);
              && fs.View() == Prepared(old(fs.View()), cfg, engine1, engine2)
              && fs.trace == old(fs.trace)
                             + ResetOps(dir1, old(fs.Exists(dir1)), old(fs.Exists(GitDirOf(dir1))))
                             + ResetOps(dir2, engine1 == engine2 || old(fs.Exists(dir2)),
                                        engine1 != engine2 && old(fs.Exists(GitDirOf(dir2))))
              && Within(fs.Entries(), dir1) == {dir1} && Within(fs.Entries(), dir2) == {dir2}
    ensures o.Fail? ==> && o.error.OsError?
                        && fs.View().Outside(SourceCodeDir(cfg)) == old(fs.View()).Outside(SourceCodeDir(cfg))
                        && var dir1, dir2 := RevisionDir(cfg, engine1), RevisionDir(cfg, engine2);
                           Interrupted(old(fs.trace), fs.trace,
                                       ResetOps(dir1, old(fs.Exists(dir1)), old(fs.Exists(GitDirOf(dir1))))
                                       + ResetOps(dir2, engine1 == engine2 || old(fs.Exists(dir2)),
                                                  engine1 != engine2 && old(fs.Exists(GitDirOf(dir2)))))
  {
    var dir1, dir2 := RevisionDir(cfg, engine1), RevisionDir(cfg, engine2);
    ghost var t := fs.View();
    ghost var second := ResetOps(dir2, engine1 == engine2 || fs.Exists(dir2), engine1 != engine2 && fs.Exists(GitDirOf(dir2)));
    ghost var reset1 := ResetOps(dir1, fs.Exists(dir1), fs.Exists(GitDirOf(dir1)));
    ghost var reset2 := ResetOps(dir2, t.Fresh(dir1).Exists(dir2), t.Fresh(dir1).Exists(GitDirOf(dir2)));
    ghost var start := fs.trace;
    var targets := [dir1, dir2];
    o := Pass;
    for i := 0 to 2
      invariant fs.Valid() && o.Pass?
      invariant i == 0 ==> fs.View() == t && fs.trace == start
      invariant i >= 1 ==> CanReset(t, dir1)
      invariant i == 1 ==> fs.View() == t.Fresh(dir1) && fs.trace == start + reset1
      invariant i == 2 ==> && CanReset(t.Fresh(dir1), dir2)
                           && fs.View() == t.Fresh(dir1).Fresh(dir2) && fs.trace == start + reset1 + reset2
    {
      o := ResetDir(fs, targets[i]);
      if o.Fail? {
        SourcesHoldRevisions(cfg, engine1, engine2);
        if i == 0 {
          OutsideWiden(fs.View(), t, dir1, SourceCodeDir(cfg));
          InterruptedSooner(start, fs.trace, reset1, second);
        } else {
          SecondTurnFinds(t, cfg, engine1, engine2);
          assert reset2 == second;
          InterruptedLater(start, reset1, fs.trace, second);
          FreshEmpties(t, dir1);
          OutsideWiden(t.Fresh(dir1), t, dir1, SourceCodeDir(cfg));
          OutsideWiden(fs.View(), t.Fresh(dir1), dir2, SourceCodeDir(cfg));
        }
        assert Interrupted(start, fs.trace, reset1 + second);
        return;
      }
    }
    PreparedEmpties(t, cfg, engine1, engine2);
  }

  /** The git step of `fetch_source_code`: clone and check out engine 1 in
      its directory, then engine 2 in its own. */
  method CloneBoth(fs: FileSystem, cfg: Config, engine1: string, engine2: string,
                   cloned1: Effect, checkedOut1: Effect, cloned2: Effect, checkedOut2: Effect)
    returns (o: Outcome)
    requires fs.Valid() && cloned1.Valid() && checkedOut1.Valid() && cloned2.Valid() && checkedOut2.Valid()
    modifies fs
    ensures fs.Valid()
    ensures o.Pass? <==>
              && CloneSucceeds(old(fs.View()), RevisionDir(cfg, engine1), cloned1)
              && CloneSucceeds(Cloned(old(fs.View()), RevisionDir(cfg, engine1), cloned1, checkedOut1),
                               RevisionDir(cfg, engine2), cloned2)
    ensures o.Pass? ==>
              && fs.View() == Cloned(Cloned(old(fs.View()), RevisionDir(cfg, engine1), cloned1, checkedOut1),
                                     RevisionDir(cfg, engine2), cloned2, checkedOut2)
              && fs.trace == old(fs.trace) + CloneOps(cfg, engine1, RevisionDir(cfg, engine1))
                                           + CloneOps(cfg, engine2, RevisionDir(cfg, engine2))
    ensures o.Fail? ==> && o.error.OsError?
                        && fs.View().Outside(SourceCodeDir(cfg)) == old(fs.View()).Outside(SourceCodeDir(cfg))
                        && Interrupted(old(fs.trace), fs.trace,
                                       CloneOps(cfg, engine1, RevisionDir(cfg, engine1))
                                       + CloneOps(cfg, engine2, RevisionDir(cfg, engine2)))
  {
    ghost var t, start := fs.View(), fs.trace;
    var dir1, dir2 := RevisionDir(cfg, engine1), RevisionDir(cfg, engine2);
    ghost var clone1, clone2 := CloneOps(cfg, engine1, dir1), CloneOps(cfg, engine2, dir2);
    SourcesHoldRevisions(cfg, engine1, engine2);
    o := CloneRevision(fs, cfg, engine1, dir1, cloned1, checkedOut1);
    if o.Fail? {
      OutsideWiden(fs.View(), t, dir1, SourceCodeDir(cfg));
      InterruptedSooner(start, fs.trace, clone1, clone2);
      return;
    }
    ghost var c := fs.View();
    ClonedOutside(t, dir1, cloned1, checkedOut1);
    o := CloneRevision(fs, cfg, engine2, dir2, cloned2, checkedOut2);
    if o.Fail? {
      OutsideWiden(c, t, dir1, SourceCodeDir(cfg));
      OutsideWiden(fs.View(), c, dir2, SourceCodeDir(cfg));
      InterruptedLater(start, clone1, fs.trace, clone2);
    }
  }

  /** The preparation loop and the git step of `fetch_source_code`, once the
      sources root exists: reset both revision directories, then clone and
      check out each revision in its own. */
  method FetchRevisions(fs: FileSystem, cfg: Config, engine1: string, engine2: string,
                        cloned1: Effect, checkedOut1: Effect, cloned2: Effect, checkedOut2: Effect)
    returns (o: Outcome)
    requires fs.Valid() && cloned1.Valid() && checkedOut1.Valid() && cloned2.Valid() && checkedOut2.Valid()
    modifies fs
    ensures fs.Valid()
    ensures o.Pass? <==>
              var prepared := Prepared(old(fs.View()), cfg, engine1, engine2);
              && CanPrepare(old(fs.View()), cfg, engine1, engine2)
              && CloneSucceeds(prepared, RevisionDir(cfg, engine1), cloned1)
              && CloneSucceeds(Cloned(prepared, RevisionDir(cfg, engine1), cloned1, checkedOut1),
                               RevisionDir(cfg, engine2), cloned2)
    ensures o.Pass? ==>
              var prepared := Prepared(old(fs.View()), cfg, engine1, engine2);
              fs.View() == Cloned(Cloned(prepared, RevisionDir(cfg, engine1), cloned1, checkedOut1),
                                  RevisionDir(cfg, engine2), cloned2, checkedOut2)
    ensures o.Pass? ==>
              var dir1, dir2 := RevisionDir(cfg, engine1), RevisionDir(cfg, engine2);
              fs.trace == old(fs.trace)
                          + RevisionsPlan(cfg, engine1, engine2,
                                          old(fs.Exists(dir1)), old(fs.Exists(GitDirOf(dir1))),
                                          engine1 == engine2 || old(fs.Exists(dir2)),
                                          engine1 != engine2 && old(fs.Exists(GitDirOf(dir2))))
    ensures o.Fail? ==> && o.error.OsError?
                        && fs.View().Outside(SourceCodeDir(cfg)) == old(fs.View()).Outside(SourceCodeDir(cfg))
    ensures o.Fail? ==>
              var dir1, dir2 := RevisionDir(cfg, engine1), RevisionDir(cfg, engine2);
              Interrupted(old(fs.trace), fs.trace,
                          RevisionsPlan(cfg, engine1, engine2,
                                        old(fs.Exists(dir1)), old(fs.Exists(GitDirOf(dir1))),
                                        engine1 == engine2 || old(fs.Exists(dir2)),
                                        engine1 != engine2 && old(fs.Exists(GitDirOf(dir2)))))
  {
    var dir1, dir2 := RevisionDir(cfg, engine1), RevisionDir(cfg, engine2);
    ghost var t, start := fs.View(), fs.trace;
    ghost var resets := ResetOps(dir1, fs.Exists(dir1), fs.Exists(GitDirOf(dir1)))
                        + ResetOps(dir2, engine1 == engine2 || fs.Exists(dir2),
                                   engine1 != engine2 && fs.Exists(GitDirOf(dir2)));
    ghost var clones := CloneOps(cfg, engine1, dir1) + CloneOps(cfg, engine2, dir2);
    ghost var plan := RevisionsPlan(cfg, engine1, engine2, fs.Exists(dir1), fs.Exists(GitDirOf(dir1)),
                                    engine1 == engine2 || fs.Exists(dir2),
                                    engine1 != engine2 && fs.Exists(GitDirOf(dir2)));
    assert plan == resets + clones;
    o := PrepareRevisionDirs(fs, cfg, engine1, engine2);
    if o.Fail? {
      InterruptedSooner(start, fs.trace, resets, clones);
      assert Interrupted(start, fs.trace, plan);
      return;
    }
    ghost var prepared := fs.View();
    assert prepared == Prepared(t, cfg, engine1, engine2);
    ghost var between := fs.trace;
    assert between == start + resets;
    o := CloneBoth(fs, cfg, engine1, engine2, cloned1, checkedOut1, cloned2, checkedOut2);
    if o.Fail? {
      PreparedEmpties(t, cfg, engine1, engine2);
      assert prepared.Outside(SourceCodeDir(cfg)) == t.Outside(SourceCodeDir(cfg));
      InterruptedLater(start, resets, fs.trace, clones);
      assert Interrupted(start, fs.trace, plan);
      return;
    }
    StepsAssociate(start, resets, clones);
    assert fs.trace == start + plan;
  }

  /** The fetch of both revisions completes: the sources root can be made,
      both passes of the preparation loop succeed, and each clone leaves its
      checkout. */
  predicate FetchSucceeds(t: Tree, cfg: Config, engine1: string, engine2: string,
                          cloned1: Effect, checkedOut1: Effect, cloned2: Effect, checkedOut2: Effect)
  {
    var prepared := Prepared(WithSources(t, cfg), cfg, engine1, engine2);
    var dir1, dir2 := RevisionDir(cfg, engine1), RevisionDir(cfg, engine2);
    && SourcesCreatable(t, cfg) && CanPrepare(WithSources(t, cfg), cfg, engine1, engine2)
    && CloneSucceeds(prepared, dir1, cloned1)
    && CloneSucceeds(Cloned(prepared, dir1, cloned1, checkedOut1), dir2, cloned2)
  }

  /** The tree a completed fetch of both revisions leaves. */
  function Fetched(t: Tree, cfg: Config, engine1: string, engine2: string,
                   cloned1: Effect, checkedOut1: Effect, cloned2: Effect, checkedOut2: Effect): Tree
  {
    var prepared := Prepared(WithSources(t, cfg), cfg, engine1, engine2);
    var dir1, dir2 := RevisionDir(cfg, engine1), RevisionDir(cfg, engine2);
    Cloned(Cloned(prepared, dir1, cloned1, checkedOut1), dir2, cloned2, checkedOut2)
  }

  /** A fetch of two different revisions changes nothing outside the sources
      root but for creating it, and afterwards each revision directory holds
      only what its own clone and checkout made: the old trees are gone. */
  lemma FetchReplacesBoth(t: Tree, cfg: Config, engine1: string, engine2: string,
                          cloned1: Effect, checkedOut1: Effect, cloned2: Effect, checkedOut2: Effect)
    requires t.Valid() && cloned1.Valid() && checkedOut1.Valid() && cloned2.Valid() && checkedOut2.Valid()
    requires FetchSucceeds(t, cfg, engine1, engine2, cloned1, checkedOut1, cloned2, checkedOut2)
    requires engine1 != engine2
    ensures var f := Fetched(t, cfg, engine1, engine2, cloned1, checkedOut1, cloned2, checkedOut2);
            && f.Valid()
            && f.Outside(SourceCodeDir(cfg)) == WithSources(t, cfg).Outside(SourceCodeDir(cfg))
    ensures var f, dir1 := Fetched(t, cfg, engine1, engine2, cloned1, checkedOut1, cloned2, checkedOut2),
                           RevisionDir(cfg, engine1);
            forall p :: p in f.Entries() && Under(p, dir1) && p != dir1 ==>
              p in cloned1.made.Entries() || p in checkedOut1.made.Entries()
    ensures var f, dir2 := Fetched(t, cfg, engine1, engine2, cloned1, checkedOut1, cloned2, checkedOut2),
                           RevisionDir(cfg, engine2);
            forall p :: p in f.Entries() && Under(p, dir2) && p != dir2 ==>
              p in cloned2.made.Entries() || p in checkedOut2.made.Entries()
  {
    var dir1, dir2 := RevisionDir(cfg, engine1), RevisionDir(cfg, engine2);
    var sources := SourceCodeDir(cfg);
    var w := WithSources(t, cfg);
    WithSourcesValid(t, cfg);
    var p := Prepared(w, cfg, engine1, engine2);
    PreparedEmpties(w, cfg, engine1, engine2);
    RevisionDirsApart(cfg, engine1, engine2);
    assert Under(dir1, sources) && Under(dir2, sources) by {
      assert dir1[..|sources|] == sources && dir2[..|sources|] == sources;
    }
    ClonedInEmpty(p, dir1, cloned1, checkedOut1);
    var q := Cloned(p, dir1, cloned1, checkedOut1);
    assert Within(q.Entries(), dir2) == {dir2} by {
      forall x | Under(x, dir2)
        ensures x in q.Entries() <==> x in p.Entries()
      {
        assert x in q.Entries() <==> x in q.Outside(dir1).Entries();
        assert x in p.Entries() <==> x in p.Outside(dir1).Entries();
      }
    }
    ClonedInEmpty(q, dir2, cloned2, checkedOut2);
    var f := Cloned(q, dir2, cloned2, checkedOut2);
    OutsideWiden(q, p, dir1, sources);
    OutsideWiden(f, q, dir2, sources);
    forall x | x in f.Entries() && Under(x, dir1) && x != dir1
      ensures x in cloned1.made.Entries() || x in checkedOut1.made.Entries()
    {
      assert x in f.Outside(dir2).Entries();
    }
  }

  /** `fetch_source_code(engine1, engine2)`: create the sources directory,
      prepare both revision directories, then clone and check out engine 1
      and engine 2 in turn. The effects are what each git command does. */
  method FetchSourceCode(fs: FileSystem, cfg: Config, engine1: string, engine2: string,
                         cloned1: Effect, checkedOut1: Effect, cloned2: Effect, checkedOut2: Effect)
    returns (r: Result<(Path, Path)>)
    requires fs.Valid() && cloned1.Valid() && checkedOut1.Valid() && cloned2.Valid() && checkedOut2.Valid()
    modifies fs
    ensures fs.Valid()
    ensures r.Ok? <==> FetchSucceeds(old(fs.View()), cfg, engine1, engine2, cloned1, checkedOut1, cloned2, checkedOut2)
    ensures r.Ok? ==> && r.value == (TreeOf(RevisionDir(cfg, engine1)), TreeOf(RevisionDir(cfg, engine2)))
                      && fs.View() == Fetched(old(fs.View()), cfg, engine1, engine2,
                                              cloned1, checkedOut1, cloned2, checkedOut2)
    ensures r.Ok? ==>
              var dir1, dir2 := RevisionDir(cfg, engine1), RevisionDir(cfg, engine2);
              fs.trace == old(fs.trace)
                          + FetchPlan(cfg, engine1, engine2,
                                      old(fs.Exists(dir1)), old(fs.Exists(GitDirOf(dir1))),
                                      engine1 == engine2 || old(fs.Exists(dir2)),
                                      engine1 != engine2 && old(fs.Exists(GitDirOf(dir2))))
    ensures r.Err? ==> r.error.OsError?
    ensures r.Err? ==> || fs.View() == old(fs.View())
                       || fs.View().Outside(SourceCodeDir(cfg))
                          == WithSources(old(fs.View()), cfg).Outside(SourceCodeDir(cfg))
    ensures r.Err? ==>
              var dir1, dir2 := RevisionDir(cfg, engine1), RevisionDir(cfg, engine2);
              Interrupted(old(fs.trace), fs.trace,
                          FetchPlan(cfg, engine1, engine2,
                                    old(fs.Exists(dir1)), old(fs.Exists(GitDirOf(dir1))),
                                    engine1 == engine2 || old(fs.Exists(dir2)),
                                    engine1 != engine2 && old(fs.Exists(GitDirOf(dir2)))))
  {
    var sources := SourceCodeDir(cfg);
    var dir1, dir2 := RevisionDir(cfg, engine1), RevisionDir(cfg, engine2);
    var git1, git2 := GitDirOf(dir1), GitDirOf(dir2);
    ghost var hadDir1, hadGit1 := fs.Exists(dir1), fs.Exists(git1);
    ghost var hadDir2, hadGit2 := fs.Exists(dir2), fs.Exists(git2);
    ghost var m := [MkdirParents(sources)];
    ghost var rest := RevisionsPlan(cfg, engine1, engine2, hadDir1, hadGit1,
                                    engine1 == engine2 || hadDir2, engine1 != engine2 && hadGit2);
    var o := fs.MakeDirs(sources);
    if o.Fail? {
      InterruptedAtStart(old(fs.trace), m + rest);
      return Err(o.error);
    }
    // Creating the sources directory and its ancestors creates nothing of
    // the revision directories.
    LongerNotAncestor(sources, dir1);
    LongerNotAncestor(sources, git1);
    LongerNotAncestor(sources, dir2);
    LongerNotAncestor(sources, git2);
    assert fs.Exists(dir1) == hadDir1 && fs.Exists(git1) == hadGit1;
    assert fs.Exists(dir2) == hadDir2 && fs.Exists(git2) == hadGit2;
    o := FetchRevisions(fs, cfg, engine1, engine2, cloned1, checkedOut1, cloned2, checkedOut2);
    if o.Fail? {
      InterruptedLater(old(fs.trace), m, fs.trace, rest);
      return Err(o.error);
    }
    r := Ok((TreeOf(dir1), TreeOf(dir2)));
    StepsAssociate(old(fs.trace), m, rest);
  }

  // ---------------------------------------------------------------------------
  // compile_cmake_project

  /** The generation command: the generator only, no build type. */
  function GenerateLine(generator: string): (line: string)
    ensures StartsWith(line, "cmake .. -G \"") && EndsWith(line, generator + "\"")
    ensures |line| == |"cmake .. -G \""| + |generator| + 1
  {
    var head := "cmake .. -G \"";
    var tail := generator + "\"";
    assert (head + tail)[..|head|] == head;
    assert (head + tail)[|head + tail| - |tail|..] == tail;
    head + tail
  }

  /** `compile_cmake_project(path)`: always rebuild. The two effects are what
      the generation and the build command do. */
  method CompileCmakeProject(fs: FileSystem, cfg: Config, path: Path, generated: Effect, built: Effect)
    returns (r: Result<Path>)
    requires fs.Valid() && generated.Valid() && built.Valid()
    modifies fs
    ensures fs.Valid()
    ensures (r.Ok? || r == Err(BinaryNotFound)) <==> CanRebuild(old(fs.View()), BuildDirOf(path))
    ensures (r.Ok? || r == Err(BinaryNotFound)) ==>
              && fs.View() == Rebuilt(old(fs.View()), BuildDirOf(path), generated, built)
              && fs.trace == old(fs.trace) + RebuildOps(BuildDirOf(path), GenerateLine(cfg.generator),
                                                        old(fs.Exists(BuildDirOf(path))))
    ensures r.Ok? ==> fs.Exists(r.value) && Probe(fs.Entries(), BuildDirOf(path)) == Some(r.value)
    ensures r == Err(BinaryNotFound) ==> Probe(fs.Entries(), BuildDirOf(path)) == None
    ensures r.Err? && r.error.OsError? ==>
              && (fs.trace == old(fs.trace) || fs.trace == old(fs.trace) + [Rmtree(BuildDirOf(path))])
              && fs.View().Outside(BuildDirOf(path)) == old(fs.View()).Outside(BuildDirOf(path))
  {
    ghost var t := fs.View();
    var build := BuildDirOf(path);
    var generate := GenerateLine(cfg.generator);
    if fs.Exists(build) {
      var o := fs.RemoveTree(build);
      if o.Fail? {
        return Err(o.error);
      }
      FreshAfterRemoval(t, build);
      r := RebuildAndProbe(fs, build, generate, generated, built);
      RebuildOpsAfterRemoval(build, generate);
    } else {
      r := RebuildAndProbe(fs, build, generate, generated, built);
    }
  }
}

=== FILE: uci_name.dfy ===
/** The UCI identity patch applied to a fresh checkout: the engine's
    `id name` line in `src/main.cpp` gets the revision appended, so that two
    builds report different names. */
module UciName {
  import opened Strings
  import opened WorkingSpace

  /** What the guard looks for (without quotes). */
  const Marker := "id name TinyChess"

  /** What the replacement rewrites (with quotes). */
  const QuotedMarker := "\"id name TinyChess\""

  /** The quoted identity string that names `commit`. */
  function RenamedMarker(commit: string): string {
    "\"id name TinyChess-" + commit + "\""
  }

  /** The text `main.cpp` is rewritten with, or None when the guard finds no
      marker and the file is left alone (a warning, not an error). */
  function PatchUciName(text: string, commit: string): (r: Option<string>)
    ensures r.None? <==> !Contains(text, Marker)
  {
    if !Contains(text, Marker) then None
    else Some(ReplaceAll(text, QuotedMarker, RenamedMarker(commit)))
  }

  /** Every quoted marker also passes the unquoted guard. */
  lemma QuotedPassesGuard(text: string)
    requires Contains(text, QuotedMarker)
    ensures Contains(text, Marker)
  {
    assert QuotedMarker[1..1 + |Marker|] == Marker;
    ContainsPiece(text, QuotedMarker, Marker, 1);
  }

  /** An unquoted-only marker passes the guard, yet the file is rewritten with
      its own text: the identity is not changed. */
  lemma UnquotedMarkerLeavesText(text: string, commit: string)
    requires Contains(text, Marker) && !Contains(text, QuotedMarker)
    ensures PatchUciName(text, commit) == Some(text)
  {
    ReplaceAbsent(text, QuotedMarker, RenamedMarker(commit));
  }

  /** The patch replaces the quoted markers and nothing else: cut the text at
      its quoted markers, and the patched text is the same pieces, in the same
      order, joined by the renamed marker. */
  lemma PatchChangesOnlyMarkers(text: string, commit: string)
    requires Contains(text, Marker)
    ensures var parts := Split(text, QuotedMarker);
            && text == Join(parts, QuotedMarker)
            && PatchUciName(text, commit) == Some(Join(parts, RenamedMarker(commit)))
            && forall k :: 0 <= k < |parts| ==> !Contains(parts[k], QuotedMarker)
  {
    JoinSplit(text, QuotedMarker);
    ReplaceIsJoinOfSplit(text, QuotedMarker, RenamedMarker(commit));
    SplitPartsAreFree(text, QuotedMarker);
  }

  /** A quoted marker in the checkout yields a `main.cpp` that reports the
      revision in its name. */
  lemma PatchNamesRevision(text: string, commit: string)
    requires Contains(text, QuotedMarker)
    ensures PatchUciName(text, commit).Some?
    ensures Contains(PatchUciName(text, commit).value, RenamedMarker(commit))
  {
    QuotedPassesGuard(text);
    ReplaceIntroduces(text, QuotedMarker, RenamedMarker(commit));
  }
}

=== FILE: working_space.dfy ===
/** The working space the pipeline acts on: an abstract file system of
    directories and text files, each file with a writable flag, together with
    the trace of every step the pipeline completed on it (directory creation
    and removal, file writes and the shell commands it issued).

    What an external command (git, cmake, cutechess-cli) does is not modelled:
    each command is given, as a parameter, what it makes, rewrites and removes
    below its working directory. */
module WorkingSpace {
  import opened Strings

  /** A path is its sequence of segments, from the file-system root. */
  type Path = seq<string>

  /** `p` is `dir` or lies somewhere below it. */
  predicate Under(p: Path, dir: Path) {
    |dir| <= |p| && p[..|dir|] == dir
  }

  /** The members of `s` that are `dir` or lie below it. */
  function Within(s: set<Path>, dir: Path): set<Path> {
    set p | p in s && Under(p, dir)
  }

  /** The members of `s` strictly below `dir`: what `dir.rglob("*")` yields. */
  function Below(s: set<Path>, dir: Path): set<Path> {
    set p | p in s && Under(p, dir) && p != dir
  }

  /** The non-empty prefixes of `p`: what `p.mkdir(parents=True)` creates. */
  function Ancestors(p: Path): set<Path> {
    set i | 1 <= i <= |p| :: p[..i]
  }

  /** A prefix of `p` that lies under `dir` puts `p` under `dir` too. */
  lemma PrefixUnder(p: Path, i: int, dir: Path)
    requires 0 <= i <= |p| && Under(p[..i], dir)
    ensures Under(p, dir)
  {
    assert p[..i][..|dir|] == p[..|dir|];
  }

  /** Creating `p` with its parents creates no longer path. */
  lemma LongerNotAncestor(p: Path, q: Path)
    requires |p| < |q|
    ensures q !in Ancestors(p)
  {
    assert forall i :: 1 <= i <= |p| ==> |p[..i]| < |q|;
  }

  /** `PurePath.parent` (the root is its own parent). */
  function Parent(p: Path): Path {
    if |p| == 0 then p else p[..|p| - 1]
  }

  /** `PurePath.name`: the last segment. */
  function Name(p: Path): string {
    if |p| == 0 then "" else p[|p| - 1]
  }

  /** Position of the dot that starts `PurePath.suffix`, if there is one:
      the last dot, provided it is neither the first nor the last character. */
  function SuffixDot(name: string): (i: int)
    ensures i == -1 || (0 < i < |name| - 1 && name[i] == '.')
  {
    var i := RFind(name, '.');
    if 0 < i < |name| - 1 then i else -1
  }

  /** `PurePath.stem`: the last segment without its suffix. */
  function Stem(p: Path): string {
    var i := SuffixDot(Name(p));
    if i == -1 then Name(p) else Name(p)[..i]
  }

  /** `PurePath.suffix`: the final dot and what follows it, or "". */
  function Suffix(p: Path): string {
    var i := SuffixDot(Name(p));
    if i == -1 then "" else Name(p)[i..]
  }

  /** The stem and the suffix split the name: the suffix is empty or a dot
      followed by at least one character and no further dot, and a stem that
      is shorter than the name is not empty. There is a suffix exactly when
      the last dot of the name is neither its first nor its last character. */
  lemma StemSuffixSplitName(p: Path)
    ensures Stem(p) + Suffix(p) == Name(p)
    ensures Suffix(p) == "" || (|Suffix(p)| >= 2 && Suffix(p)[0] == '.'
                                && forall j :: 1 <= j < |Suffix(p)| ==> Suffix(p)[j] != '.')
    ensures Stem(p) != Name(p) ==> |Stem(p)| > 0
    ensures Suffix(p) != "" <==> exists i :: 0 < i < |Name(p)| - 1 && Name(p)[i] == '.'
                                            && forall j :: i < j < |Name(p)| ==> Name(p)[j] != '.'
  {
    var name := Name(p);
    var i := SuffixDot(name);
    if k :| 0 < k < |name| - 1 && name[k] == '.' && forall j :: k < j < |name| ==> name[j] != '.' {
      // The last dot is at `k`, so `k` is where the suffix starts.
      var r := RFind(name, '.');
      assert r == k;
      assert Suffix(p) == name[k..];
    }
    if i != -1 {
      assert i == RFind(name, '.');
      assert name[..i] + name[i..] == name;
      forall j | 1 <= j < |Suffix(p)|
        ensures Suffix(p)[j] != '.'
      {
        assert Suffix(p)[j] == name[i + j];
      }
    }
  }

  /** Every ancestor of `p` below the root (each proper prefix) is in `dirs`. */
  predicate Rooted(p: Path, dirs: set<Path>) {
    forall i :: 1 <= i < |p| ==> p[..i] in dirs
  }

  /** The directories, the files with their text, and which files are
      read-only. */
  datatype Tree = Tree(dirs: set<Path>, files: map<Path, string>, readOnly: set<Path>) {
    /** Directories and files are distinct, and only files are read-only. */
    predicate Consistent() {
      dirs !! files.Keys && readOnly <= files.Keys
    }

    /** A file system: consistent, and the ancestors of every entry are
        directories. */
    predicate Valid() {
      && Consistent()
      && (forall p :: p in dirs ==> Rooted(p, dirs))
      && (forall p :: p in files ==> Rooted(p, dirs))
    }

    function Entries(): set<Path> {
      dirs + files.Keys
    }

    /** `Path.exists()`: a directory or a file. */
    predicate Exists(p: Path) {
      p in dirs || p in files
    }

    /** Everything that lies outside `dir`. */
    function Outside(dir: Path): Tree {
      Tree(dirs - Within(dirs, dir), files - Within(files.Keys, dir), readOnly - Within(readOnly, dir))
    }

    /** `dir` replaced by an empty directory. */
    function Fresh(dir: Path): Tree {
      Tree(dirs - Within(dirs, dir) + {dir}, files - Within(files.Keys, dir), readOnly - Within(readOnly, dir))
    }

    /** The tree with the directories `s` added. */
    function WithDirs(s: set<Path>): Tree {
      Tree(dirs + s, files, readOnly)
    }

    /** The tree with file `p` holding `text`. */
    function Written(p: Path, text: string): Tree {
      Tree(dirs, files[p := text], readOnly)
    }

    /** What is left after a command run in `cwd` with effect `e`. Only the
        part of `e` strictly below `cwd` applies: first what it removes goes,
        then what it makes replaces what was there; an entry whose ancestors
        are no longer all directories is gone with them. */
    function AfterRun(cwd: Path, e: Effect): Tree {
      var gone, newDirs, newFiles := Below(e.removed, cwd), Below(e.made.dirs, cwd), Below(e.made.files.Keys, cwd);
      var d := (dirs - gone - newFiles) + newDirs;
      var kept := files.Keys - gone - newDirs - newFiles;
      Tree(set p | p in d && Rooted(p, d),
           map p | p in kept + newFiles && Rooted(p, d) :: if p in newFiles then e.made.files[p] else files[p],
           set p | p in (readOnly * kept) + (e.made.readOnly * newFiles) && Rooted(p, d))
    }
  }

  /** What an external command does below its working directory: the entries
      it makes or rewrites, and the entries it removes (with all below them). */
  datatype Effect = Effect(made: Tree, removed: set<Path>) {
    predicate Valid() {
      made.Consistent()
    }
  }

  /** Removing `dir` with everything below it and creating it afresh leaves a
      file system in which `dir` is empty and nothing outside it changed. */
  lemma FreshEmpties(t: Tree, dir: Path)
    requires t.Valid() && |dir| > 0 && Parent(dir) in t.dirs
    ensures t.Fresh(dir).Valid()
    ensures Within(t.Fresh(dir).Entries(), dir) == {dir}
    ensures t.Fresh(dir).Outside(dir) == t.Outside(dir)
  {
    var f := t.Fresh(dir);
    forall q | q in t.Entries() && !Under(q, dir)
      ensures Rooted(q, f.dirs)
    {
      forall i | 1 <= i < |q|
        ensures q[..i] in f.dirs
      {
        if Under(q[..i], dir) {
          PrefixUnder(q, i, dir);
        }
      }
    }
    forall i | 1 <= i < |dir|
      ensures dir[..i] in f.dirs
    {
      if i < |dir| - 1 {
        assert dir[..i] == Parent(dir)[..i];
      } else {
        assert dir[..i] == Parent(dir);
      }
    }
  }

  /** A command keeps the file system well formed, and its working directory
      stays a directory. */
  lemma AfterRunValid(t: Tree, cwd: Path, e: Effect)
    requires t.Valid() && e.Valid() && cwd in t.dirs
    ensures t.AfterRun(cwd, e).Valid()
    ensures cwd in t.AfterRun(cwd, e).dirs
  {
    var a := t.AfterRun(cwd, e);
    var gone, newDirs, newFiles := Below(e.removed, cwd), Below(e.made.dirs, cwd), Below(e.made.files.Keys, cwd);
    var d := (t.dirs - gone - newFiles) + newDirs;
    forall p | p in a.dirs || p in a.files
      ensures Rooted(p, a.dirs)
    {
      forall i | 1 <= i < |p|
        ensures p[..i] in a.dirs
      {
        forall j | 1 <= j < |p[..i]|
          ensures p[..i][..j] in d
        {
          assert p[..i][..j] == p[..j];
        }
      }
    }
    assert cwd in d;
  }

  /** A command changes nothing outside its working directory. */
  lemma AfterRunOutside(t: Tree, cwd: Path, e: Effect)
    requires t.Valid()
    ensures t.AfterRun(cwd, e).Outside(cwd) == t.Outside(cwd)
  {
    var a := t.AfterRun(cwd, e);
    var gone, newDirs, newFiles := Below(e.removed, cwd), Below(e.made.dirs, cwd), Below(e.made.files.Keys, cwd);
    var d := (t.dirs - gone - newFiles) + newDirs;
    forall p | p in t.Entries() && !Under(p, cwd)
      ensures Rooted(p, d)
    {
      forall i | 1 <= i < |p|
        ensures p[..i] in d
      {
        if Under(p[..i], cwd) {
          PrefixUnder(p, i, cwd);
        }
      }
    }
    assert a.Outside(cwd).dirs == t.Outside(cwd).dirs;
    assert a.Outside(cwd).files == t.Outside(cwd).files;
    assert a.Outside(cwd).readOnly == t.Outside(cwd).readOnly;
  }

  /** Whatever is there after a command was there before or was made by the
      command strictly below its working directory, and a file holds the
      command's text when the command wrote it, and its old text otherwise. */
  lemma AfterRunBelow(t: Tree, cwd: Path, e: Effect)
    ensures var a := t.AfterRun(cwd, e);
            forall p :: p in a.dirs ==> p in t.dirs || (Under(p, cwd) && p != cwd && p in e.made.dirs)
    ensures var a := t.AfterRun(cwd, e);
            forall p :: p in a.files ==>
              if Under(p, cwd) && p != cwd && p in e.made.files then a.files[p] == e.made.files[p]
              else p in t.files && a.files[p] == t.files[p]
  {
  }

  /** A directory the command makes directly in its working directory is
      there afterwards. */
  lemma AfterRunChild(t: Tree, cwd: Path, e: Effect, name: string)
    requires t.Valid() && cwd in t.dirs && cwd + [name] in e.made.dirs
    ensures cwd + [name] in t.AfterRun(cwd, e).dirs
  {
    var gone, newDirs, newFiles := Below(e.removed, cwd), Below(e.made.dirs, cwd), Below(e.made.files.Keys, cwd);
    var d := (t.dirs - gone - newFiles) + newDirs;
    var child := cwd + [name];
    assert Under(child, cwd) by {
      assert child[..|cwd|] == cwd;
    }
    forall i | 1 <= i < |child|
      ensures child[..i] in d
    {
      if i < |cwd| {
        assert child[..i] == cwd[..i];
      } else {
        assert child[..i] == cwd;
      }
    }
  }

  /** An entry strictly below `dir` makes `dir` a directory. */
  lemma AncestorIsDir(t: Tree, q: Path, dir: Path)
    requires t.Valid() && q in t.Entries() && Under(q, dir) && q != dir && |dir| > 0
    ensures dir in t.dirs
  {
    assert q[..|dir|] == dir;
  }

  /** Emptying `dir` afresh after removing it is emptying it afresh. */
  lemma FreshAfterRemoval(t: Tree, dir: Path)
    ensures t.Outside(dir).Fresh(dir) == t.Fresh(dir)
  {
  }

  /** `dir` and all below it are replaced by nothing, or by the empty `dir`:
      creating a directory that did not exist is making it fresh. */
  lemma FreshOfAbsent(t: Tree, dir: Path)
    requires t.Valid() && !t.Exists(dir) && |dir| > 0
    ensures t.Outside(dir) == t
    ensures t.Fresh(dir) == t.WithDirs({dir})
  {
    forall q | q in t.Entries() && Under(q, dir)
      ensures false
    {
      AncestorIsDir(t, q, dir);
    }
    assert Within(t.dirs, dir) == {};
    assert Within(t.files.Keys, dir) == {};
    assert Within(t.readOnly, dir) == {};
  }

  /** Rewriting a file that lies under `dir` keeps the file system well
      formed and changes nothing outside `dir`. */
  lemma WrittenInside(t: Tree, p: Path, text: string, dir: Path)
    requires t.Valid() && p in t.files && Under(p, dir)
    ensures t.Written(p, text).Valid() && t.Written(p, text).Entries() == t.Entries()
    ensures t.Written(p, text).Outside(dir) == t.Outside(dir)
  {
    var w := t.Written(p, text);
    assert w.Entries() == t.Entries();
    assert w.Outside(dir).files == t.Outside(dir).files;
  }

  /** Trees that agree outside `inner` agree outside every `outer` holding it. */
  lemma OutsideWiden(a: Tree, b: Tree, inner: Path, outer: Path)
    requires a.Outside(inner) == b.Outside(inner) && Under(inner, outer)
    ensures a.Outside(outer) == b.Outside(outer)
  {
    forall p | Under(p, inner)
      ensures Under(p, outer)
    {
      assert p[..|outer|] == p[..|inner|][..|outer|];
    }
    assert a.Outside(outer).dirs == b.Outside(outer).dirs by {
      forall p | !Under(p, outer) ensures p in a.dirs <==> p in b.dirs {
        assert p in a.dirs <==> p in a.Outside(inner).dirs;
      }
    }
    assert a.Outside(outer).files == b.Outside(outer).files by {
      forall p | !Under(p, outer) ensures p in a.files <==> p in b.files {
        assert p in a.files <==> p in a.Outside(inner).files;
      }
      forall p | !Under(p, outer) && p in a.files ensures a.files[p] == b.files[p] {
        assert a.files[p] == a.Outside(inner).files[p];
      }
    }
    assert a.Outside(outer).readOnly == b.Outside(outer).readOnly by {
      forall p | !Under(p, outer) ensures p in a.readOnly <==> p in b.readOnly {
        assert p in a.readOnly <==> p in a.Outside(inner).readOnly;
      }
    }
  }

  /** A shell command and the directory it runs in. */
  datatype Command = Command(line: string, cwd: Path)

  /** One completed step, named after the call the pipeline makes. The
      `chmod` of `delete_dot_git_dir` is not recorded. */
  datatype Op =
    | MkdirParents(path: Path)    // path.mkdir(parents=True, exist_ok=True)
    | Mkdir(path: Path)           // path.mkdir()
    | Rmtree(path: Path)          // shutil.rmtree(path)
    | WriteText(path: Path)       // path.write_text(...)
    | RunCmd(cmd: Command)        // run_cmd(line, cwd)

  /** The operating-system errors a file-system step raises. */
  datatype OsErrorKind = FileNotFound | FileExists | NotADirectory | IsADirectory | PermissionDenied

  /** The exception that ends a pipeline step. */
  datatype Error =
    | OsError(kind: OsErrorKind, path: Path)
    | BinaryNotFound            // FileNotFoundError("Could not find binary!")
    | ParentsDiffer             // the AssertionError of run_sprt

  datatype Option<T> = None | Some(value: T)

  datatype Outcome = Pass | Fail(error: Error)

  datatype Result<T> = Ok(value: T) | Err(error: Error)

  /** The commands issued, in order: the command log. */
  function Commands(ops: seq<Op>): (cmds: seq<Command>)
    ensures |cmds| <= |ops|
  {
    if |ops| == 0 then []
    else (if ops[0].RunCmd? then [ops[0].cmd] else []) + Commands(ops[1..])
  }

  /** A single step contributes its command, if it is one. */
  lemma CommandsOne(op: Op)
    ensures Commands([op]) == if op.RunCmd? then [op.cmd] else []
  {
    assert [op][1..] == [];
  }

  /** Steps recorded one run after another: grouping does not matter. */
  lemma StepsAssociate(a: seq<Op>, b: seq<Op>, c: seq<Op>)
    ensures a + b + c == a + (b + c)
  {
  }

  /** `after` is `before` followed by a proper prefix of `plan`: the steps
      of the plan were taken in order until one of them raised. */
  predicate Interrupted(before: seq<Op>, after: seq<Op>, plan: seq<Op>) {
    |before| <= |after| < |before| + |plan| && after == before + plan[..|after| - |before|]
  }

  /** Raising at the first step of a plan records nothing. */
  lemma InterruptedAtStart(before: seq<Op>, plan: seq<Op>)
    requires |plan| > 0
    ensures Interrupted(before, before, plan)
  {
    assert before + plan[..0] == before;
  }

  /** Raising once `done` is recorded, with `rest` still to come. */
  lemma InterruptedAfter(before: seq<Op>, done: seq<Op>, rest: seq<Op>)
    requires |rest| > 0
    ensures Interrupted(before, before + done, done + rest)
  {
    assert (done + rest)[..|done|] == done;
  }

  /** Raising in the second part of a plan, once the first is recorded. */
  lemma InterruptedLater(before: seq<Op>, first: seq<Op>, after: seq<Op>, rest: seq<Op>)
    requires Interrupted(before + first, after, rest)
    ensures Interrupted(before, after, first + rest)
  {
    var k := |after| - |before + first|;
    assert (first + rest)[..|first| + k] == first + rest[..k];
    StepsAssociate(before, first, rest[..k]);
  }

  /** Raising in the first part of a plan leaves the rest of it untaken. */
  lemma InterruptedSooner(before: seq<Op>, after: seq<Op>, plan: seq<Op>, more: seq<Op>)
    requires Interrupted(before, after, plan)
    ensures Interrupted(before, after, plan + more)
  {
    assert (plan + more)[..|after| - |before|] == plan[..|after| - |before|];
  }

  /** Steps that are not commands contribute nothing to the command log. */
  lemma {:induction false} CommandsNone(ops: seq<Op>)
    requires forall op :: op in ops ==> !op.RunCmd?
    ensures Commands(ops) == []
  {
    if |ops| > 0 {
      CommandsNone(ops[1..]);
    }
  }

  lemma {:induction false} CommandsAppend(a: seq<Op>, b: seq<Op>)
    ensures Commands(a + b) == Commands(a) + Commands(b)
  {
    if |a| > 0 {
      assert (a + b)[1..] == a[1..] + b;
      CommandsAppend(a[1..], b);
    } else {
      assert a + b == b;
    }
  }

  class FileSystem {
    var dirs: set<Path>
    var files: map<Path, string>
    var readOnly: set<Path>
    var trace: seq<Op>

    /** The current tree. */
    function View(): Tree
      reads this
    {
      Tree(dirs, files, readOnly)
    }

    ghost predicate Valid()
      reads this
    {
      View().Valid()
    }

    function Entries(): set<Path>
      reads this
    {
      View().Entries()
    }

    /** `Path.exists()`: a directory or a file of the current tree. */
    predicate Exists(p: Path): (b: bool)
      reads this
      ensures b <==> View().Exists(p)
    {
      p in dirs || p in files
    }

    constructor (t: Tree)
      requires t.Valid()
      ensures Valid() && View() == t && trace == []
    {
      dirs, files, readOnly := t.dirs, t.files, t.readOnly;
      trace := [];
    }

    /** `p.mkdir(parents=True, exist_ok=True)`: fails when `p` or one of its
        ancestors is a file. */
    method MakeDirs(p: Path) returns (o: Outcome)
      requires Valid()
      modifies this
      ensures Valid() && files == old(files) && readOnly == old(readOnly)
      ensures o.Pass? <==> Ancestors(p) !! old(files.Keys)
      ensures o.Pass? ==> dirs == old(dirs) + Ancestors(p) && trace == old(trace) + [MkdirParents(p)]
      ensures o.Fail? ==> dirs == old(dirs) && trace == old(trace) && o.error.OsError?
    {
      if Ancestors(p) !! files.Keys {
        forall q | q in Ancestors(p)
          ensures Rooted(q, dirs + Ancestors(p))
        {
          var k :| 1 <= k <= |p| && q == p[..k];
          forall i | 1 <= i < |q|
            ensures q[..i] in Ancestors(p)
          {
            assert q[..i] == p[..i];
          }
        }
        dirs := dirs + Ancestors(p);
        trace := trace + [MkdirParents(p)];
        o := Pass;
      } else {
        o := Fail(OsError(FileExists, p));
      }
    }

    /** `p.mkdir()`: fails when `p` exists or its parent is not a directory. */
    method MakeDir(p: Path) returns (o: Outcome)
      requires Valid()
      modifies this
      ensures Valid() && files == old(files) && readOnly == old(readOnly)
      ensures o.Pass? <==> !old(Exists(p)) && |p| > 0 && Parent(p) in old(dirs)
      ensures o.Pass? ==> dirs == old(dirs) + {p} && trace == old(trace) + [Mkdir(p)]
      ensures o.Fail? ==> dirs == old(dirs) && trace == old(trace) && o.error.OsError?
    {
      if Exists(p) {
        o := Fail(OsError(FileExists, p));
      } else if |p| == 0 || Parent(p) !in dirs {
        o := Fail(OsError(FileNotFound, Parent(p)));
      } else {
        forall i | 1 <= i < |p|
          ensures p[..i] in dirs
        {
          if i < |p| - 1 {
            assert p[..i] == Parent(p)[..i];
          } else {
            assert p[..i] == Parent(p);
          }
        }
        dirs := dirs + {p};
        trace := trace + [Mkdir(p)];
        o := Pass;
      }
    }

    /** `shutil.rmtree(p)` with the file-system semantics of Windows, which the
        pipeline targets: a read-only file anywhere below `p` makes it fail.
        What a failing call has already removed below `p` is left open. */
    method RemoveTree(p: Path) returns (o: Outcome)
      requires Valid()
      modifies this
      ensures Valid()
      ensures o.Pass? <==> p in old(dirs) && Within(old(readOnly), p) == {}
      ensures o.Pass? ==> && dirs == old(dirs) - Within(old(dirs), p)
                          && files == old(files) - Within(old(files.Keys), p)
                          && readOnly == old(readOnly)
                          && trace == old(trace) + [Rmtree(p)]
      ensures o.Pass? ==> View() == old(View()).Outside(p)
      ensures o.Fail? ==> && trace == old(trace) && o.error.OsError?
                          && View().Outside(p) == old(View()).Outside(p)
      ensures o.Fail? && p !in old(dirs) ==> unchanged(this)
    {
      if !Exists(p) {
        o := Fail(OsError(FileNotFound, p));
      } else if p in files {
        o := Fail(OsError(NotADirectory, p));
      } else if Within(readOnly, p) != {} {
        o := Fail(OsError(PermissionDenied, p));
      } else {
        forall q | q in readOnly
          ensures q in files.Keys - Within(files.Keys, p)
        {
          assert q !in Within(readOnly, p);
        }
        forall q | q in Entries() && !Under(q, p)
          ensures Rooted(q, dirs - Within(dirs, p))
        {
          forall i | 1 <= i < |q|
            ensures q[..i] !in Within(dirs, p)
          {
            if Under(q[..i], p) {
              PrefixUnder(q, i, p);
            }
          }
        }
        dirs := dirs - Within(dirs, p);
        files := files - Within(files.Keys, p);
        trace := trace + [Rmtree(p)];
        o := Pass;
      }
    }

    /** `p.chmod(stat.S_IWRITE)` on a file: it becomes writable. */
    method MakeWritable(p: Path)
      requires Valid() && p in files
      modifies this
      ensures Valid() && readOnly == old(readOnly) - {p}
      ensures dirs == old(dirs) && files == old(files) && trace == old(trace)
    {
      readOnly := readOnly - {p};
    }

    /** `p.read_text()`. */
    method ReadText(p: Path) returns (r: Result<string>)
      requires Valid()
      ensures r.Ok? <==> p in files
      ensures r.Ok? ==> r.value == files[p]
      ensures r.Err? ==> r.error.OsError?
    {
      if p in files {
        r := Ok(files[p]);
      } else if p in dirs {
        r := Err(OsError(IsADirectory, p));
      } else {
        r := Err(OsError(FileNotFound, p));
      }
    }

    /** `p.write_text(text)`: replaces the text of a writable file, or creates
        the file in an existing directory. */
    method Write(p: Path, text: string) returns (o: Outcome)
      requires Valid()
      modifies this
      ensures Valid() && dirs == old(dirs) && readOnly == old(readOnly)
      ensures o.Pass? <==> p !in old(dirs) && p !in old(readOnly) && (p in old(files) || Parent(p) in old(dirs))
      ensures o.Pass? ==> files == old(files)[p := text] && trace == old(trace) + [WriteText(p)]
      ensures o.Fail? ==> files == old(files) && trace == old(trace) && o.error.OsError?
    {
      if p in dirs {
        o := Fail(OsError(IsADirectory, p));
      } else if p in readOnly {
        o := Fail(OsError(PermissionDenied, p));
      } else if p !in files && Parent(p) !in dirs {
        o := Fail(OsError(FileNotFound, p));
      } else {
        if p !in files {
          forall i | 1 <= i < |p|
            ensures p[..i] in dirs
          {
            if i < |p| - 1 {
              assert p[..i] == Parent(p)[..i];
            } else {
              assert p[..i] == Parent(p);
            }
          }
        }
        files := files[p := text];
        trace := trace + [WriteText(p)];
        o := Pass;
      }
    }

    /** `run_cmd(line, cwd)`: the command is issued when `cwd` is a directory
        (otherwise `subprocess.run` raises before starting it), and leaves
        behind what `e` says below `cwd`. Its exit status is never inspected. */
    method Run(c: Command, e: Effect) returns (o: Outcome)
      requires Valid() && e.Valid()
      modifies this
      ensures Valid()
      ensures o.Pass? <==> c.cwd in old(dirs)
      ensures o.Pass? ==> && View() == old(View()).AfterRun(c.cwd, e)
                          && trace == old(trace) + [RunCmd(c)]
                          && c.cwd in dirs
                          && View().Outside(c.cwd) == old(View()).Outside(c.cwd)
      ensures o.Fail? ==> unchanged(this) && o.error.OsError?
    {
      if c.cwd !in dirs {
        o := Fail(if c.cwd in files then OsError(NotADirectory, c.cwd) else OsError(FileNotFound, c.cwd));
      } else {
        AfterRunValid(View(), c.cwd, e);
        AfterRunOutside(View(), c.cwd, e);
        var after := View().AfterRun(c.cwd, e);
        dirs, files, readOnly := after.dirs, after.files, after.readOnly;
        trace := trace + [RunCmd(c)];
        o := Pass;
      }
    }
  }
}
